=== FILE: README.md ===
# EyesCream image pipeline — a Dafny model

EyesCream collects image links from the PTT Beauty board and publishes them.
Its core has four parts, and this project models each as pure functions with
proved contracts:

- **Scraper.py**, the current crawler.
  - It checks the date window.
  - It walks the board's listing pages backwards from `/bbs/Beauty/index.html`. On each page it turns the `[正妹]` rows into article tasks, stops early once a page's first row is older than the window, and otherwise follows the `‹ 上頁` link.
  - It extracts each article's links: the anchors before the `--` signature separator that no blacklist entry matches. It then drops imgur links whose HEAD request fails or ends on a removed-image page.
  - It folds the results into date-sorted buckets.
- **Scrap.py**, the older single-day crawler.
  - It walks at most eight pages, keeps the rows dated exactly `M/DD`, splits their titles and extracts their links.
  - It retries once after HTTP 429, and concatenates everything.
  - Almost every malformed input ends its run with an exception, and the model keeps those exceptions as error results.
- **notionPageCreate.py**, the publishing loop. It cuts each date's links into chunks of 100 and makes one page per chunk. The first page is titled `YYYY-MM-DD`, the k-th `YYYY-MM-DD k`, and each page holds one embed block per link.
- **image-gallery/script.js**, the viewer. It keeps a circular index over the images, with next/previous navigation, a `n / N` counter, keyboard shortcuts and an autoplay interval.

The network, the clock and the timers are parameters.
- A request is a function from URL to outcome.
- `date.today()` and `datetime.now().year` are arguments.
- `setInterval` ids are explicit state.

Exceptions are `Result` errors. Python's `strip`, substring `in`, `lower()` (ASCII letters only), `strptime`'s four-digit `%Y`, `raise_for_status` (status 400–599) and JavaScript's truncating `%` are written out.

Modules:
- `Outcomes`: `Option` and `Result`.
- `Text`: trim, substring search, lower-casing, decimal rendering and zero padding.
- `Dates`: the proleptic Gregorian calendar and ISO rendering.
- `Config`: the constants of shareConstant.py.
- `Arith`: small facts about multiplication and division.
- `Links`: the article side.
- `Listing`: the listing-page side.
- `Aggregation`: the fold.
- `Scraper`: `scrape_ptt_images`.
- `Legacy`: Scrap.py.
- `NotionPages`: the publishing loop.
- `Gallery`: the viewer.

## Model

| member | source | states |
|---|---|---|
| Text.TrimKeepsCore | Scraper.py:52 | `strip()` removes only surrounding whitespace: the input is leading space, then the result, then trailing space, and the result neither begins nor ends with whitespace |
| Text.ContainsIffOccurs | Scraper.py:57 | the substring test `b in href` holds exactly when `b` occurs at some position of `href` |
| Text.NatToStringRoundTrip | Scrap.py:21 | the decimal rendering of a number reads back as that number |
| Text.ZeroPad | Scrap.py:21 | `{day:02d}` is all digits, exactly as long as the day's decimal form or two characters when that is shorter, and reads back as the day; these fix the text |
| Dates.DaysInMonth | Scraper.py:80 | February has 29 days in a leap year and 28 otherwise; April, June, September and November have 30; every other month has 31 |
| Dates.BeforeIsStrictTotalOrder | Scraper.py:153 | date comparison is irreflexive, asymmetric, transitive and total |
| Dates.IsoDate | notionPageCreate.py:53 | for the years 1000 through 9999, `strftime('%Y-%m-%d')` is ten characters with dashes at 4 and 7, and its digit fields read back as the year, month and day |
| Dates.IsoDateInjective | notionPageCreate.py:53 | distinct dates get distinct `%Y-%m-%d` texts |
| Links.Candidates | Scraper.py:50-58 | no kept `href` contains a blacklist entry, and at most one link is kept per node |
| Links.CandidatesIsCutThenFilter | Scraper.py:50-58 | the extraction loop equals cutting the nodes at the first `--` text node, taking every anchor `href`, then dropping blacklisted ones |
| Links.DelimiterEndsExtraction | Scraper.py:52-53 | nothing after a `--` text node is ever extracted |
| Links.ImgurValid | Scraper.py:16-30 | a link is live unless the HEAD request raised, answered 4xx/5xx, or ended on `imgur.com/`, `i.imgur.com/` or `removed.png`, and it is live in every other case |
| Links.ValidLinks | Scraper.py:61-68 | the validated list is a subsequence of the candidates; it holds exactly the candidates that are not imgur links or whose imgur check passes |
| Links.ValidLinksCounts | Scraper.py:61-68 | validation keeps every occurrence of a kept link and no occurrence of a dropped one |
| Links.ArticleLinks | Scraper.py:32-72 | a failed fetch or a missing `main-content` yields no links; otherwise the result is a subsequence of the candidates, none blacklisted and all passing validation, and every candidate that passes validation is in it, as many times as it occurs among the candidates |
| Listing.ParsePttDate | Scraper.py:77-85 | a parsed date is valid, keeps the row's month and day, and is in the current year unless that date lies after today, when it is the previous year; it never lies after today |
| Listing.ParsePttDateFailsExactly | Scraper.py:77-85 | parsing fails exactly for a year `%Y` cannot read, a day the current year lacks, or a future February 29 that cannot move into a common previous year |
| Listing.ProcessArticleMetadata | Scraper.py:87-105 | a row is accepted exactly when it has a date div, a title div with an anchor, a `[正妹]` title without `cosplay` in any case, a parsable date and an `href`; the task is the base URL plus `href` with the parsed date; such a row without an `href` is an error, and only such a row |
| Listing.WindowFault | Scraper.py:116-120 | the run is refused exactly when the end is after today, or else when the start is after the end |
| Listing.Harvest | Scraper.py:149-154 | a page's tasks are in-window and valid, and no more numerous than its rows; the page fails exactly when some row would be accepted but for its missing `href` |
| Listing.HarvestMembers | Scraper.py:149-154 | a successful harvest holds exactly the accepted rows whose dates lie in the window |
| Listing.HarvestCounts | Scraper.py:149-154 | a successful harvest holds each task exactly as many times as rows dated in the window yield it: nothing is dropped or merged |
| Listing.PrevPagePath | Scraper.py:166-170 | a returned path is the `href` of an anchor reading `‹ 上頁` |
| Listing.PageStep | Scraper.py:135-170 | one loop iteration: a failed fetch ends the walk, and so does an empty page; otherwise the rows are harvested, then a first row older than the start ends the walk, then a missing previous link does, so that reason is recorded only when the first row is not old; the walk goes on exactly when none of these holds; the step's tasks are the page's harvest |
| Listing.Walk | Scraper.py:131-171 | the walk fetches at most `max_pages` pages, starting at the index page; it stops at the limit only after that many pages; every task is in the window; the only error is a row without `href` |
| Listing.HarvestsMembers | Scraper.py:131-154 | the tasks harvested from a list of pages are exactly the accepted rows of those pages dated in the window |
| Listing.WalkTasks | Scraper.py:131-171 | the walk's tasks are the harvests of the pages it fetched, concatenated in page order |
| Listing.WalkFollowsPrevLinks | Scraper.py:157-170 | every fetched page but the last was left through its own previous-page link, and only while its first row was not older than the start |
| Listing.LinkedEveryHop | Scraper.py:166-170 | the chained form of that property gives the link condition for every consecutive pair of fetched pages |
| Listing.WalkStopsForItsReason | Scraper.py:135-170 | the last fetched page explains the reason recorded for stopping |
| Listing.WalkFailsAt | Scraper.py:131-171 | a failed walk went from its first page, through previous-page links and within `max_pages` pages, to a fetched page whose rows raise while harvested |
| Listing.WalkFailsFrom | Scraper.py:131-171 | conversely, a walk with such a chain of pages fails: reaching a page whose rows raise is the one way the walk fails |
| Aggregation.Merge | Scraper.py:185-188 | folding one non-empty result into the buckets keeps them sorted by date without empty buckets; it adds the date as a key and appends the links to that date only; an empty result changes no key and no bucket |
| Aggregation.Aggregate | Scraper.py:181-194 | the fold is sorted with no empty bucket; each date's bucket is all its results' links in completion order; a date is a key exactly when some result for it was non-empty |
| Aggregation.CompletionOrderIrrelevant | Scraper.py:181 | any completion order of the same results gives the same keys and, for each date, the same links up to order |
| Aggregation.LinksForCollects | Scraper.py:185-188 | every link of every result appears in the bucket of its date |
| Scraper.ScrapeImages | Scraper.py:110-194 | a bad window gives its error before any request; with a good window the run fails exactly when the walk does, and then only for a row without `href`; the result is date-sorted, in-window, with every link unblacklisted and validated; each date's bucket is the links of the walk's tasks for that date |
| Scraper.ScrapeImagesComplete | Scraper.py:131-188 | every link that an accepted, in-window row on a fetched page yields is in its date's bucket |
| Scraper.ScenarioStopsOnOldFirstRow | Scraper.py:157-163 | with the window 2025-09-12..19, an index page whose first row is 9/10 yields the 9/15 row's task and ends the walk there, although a previous-page link exists |
| Legacy.SplitTitle | Scrap.py:72-84 | a title is dropped exactly when it mentions a deleted post or lacks `[` or `]`; otherwise the result is the stripped text after the first `]` |
| Legacy.FindNextPage | Scrap.py:87-91 | there is no next page exactly when no `btn wide` anchor reads `‹ 上頁`; the only failure is such an anchor without `href` |
| Legacy.FindNextPageTakesFirst | Scrap.py:89-91 | the first anchor reading `‹ 上頁` decides the result, whatever follows |
| Legacy.FindNextPageAgreesWithScraper | Scrap.py:87-91 | the older lookup finds the same previous-page path as the newer one whenever it does not raise |
| Legacy.DateKeyInjective | Scrap.py:21 | distinct month/day pairs give distinct `M/DD` keys |
| Legacy.DateKeyExamples | Scrap.py:21 | September 5 is keyed `9/05` and December 25 `12/25` |
| Legacy.RetryDelay | Scrap.py:101-102 | the back-off is `Retry-After` seconds, 60 when the header is absent; it is an error exactly when the value is not an integer, is negative, or exceeds the 9223372036 seconds `time.sleep` can hold |
| Legacy.ExtractImages | Scrap.py:96-126 | one request, or two exactly when the first answered 429; after a 429 the back-off follows `Retry-After`; the links come from the response actually used and none is blacklisted; it raises exactly when the back-off raises or the response used lacks `main-content` or its request failed |
| Legacy.LinksOf | Scrap.py:105-126 | too many redirects give no links; another request error or a missing `main-content` raises; otherwise the links are the candidates of the response |
| Legacy.VisitRow | Scrap.py:37-56 | a row without a date div raises; a row on another day is skipped; a kept article had the key date, a title that is not excluded and that splits, and its images pass the blacklist |
| Legacy.VisitRowDecides | Scrap.py:37-56 | on the key date: no title div raises; an excluded or unsplittable title is skipped; otherwise the row is kept without images when it has no anchor, raises when its anchor lacks `href`, and is kept with the extraction's links or raises the extraction's error |
| Legacy.VisitRowsMembers | Scrap.py:37-56 | a page's kept articles are exactly those its rows keep |
| Legacy.VisitRowsRaisesAt | Scrap.py:37-56 | a page whose row loop raised has a row that raises with that very error, and every row before it passes: the first raising row decides |
| Legacy.VisitRowsRaisesFrom | Scrap.py:37-56 | conversely, any row that raises makes the page's row loop raise |
| Legacy.VisitRowsNeedsDates | Scrap.py:38 | one row without a date div anywhere on a page makes the whole run fail |
| Legacy.StepAt | Scrap.py:29-63 | one iteration on a page: a failed request raises; otherwise the rows are visited first and may raise, then the navigation bar, whose `‹ 上頁` anchor without `href` raises; the loop moves on exactly along a usable previous-page link and stops when there is none |
| Legacy.CrawlFailsExactly | Scrap.py:28-64 | the walk fails exactly when, iteration by iteration and within the page limit, it reaches a page that raises |
| Legacy.CrawlFailsAt | Scrap.py:28-64 | a failed walk went from its first page, through `‹ 上頁` links and within the page limit, to a page whose request failed, one of whose rows raised, or whose navigation bar raised |
| Legacy.CrawlFailsFrom | Scrap.py:28-64 | conversely, a walk with such a chain of pages fails |
| Legacy.CrawlFrom | Scrap.py:28-64 | the walk fetches at most `max_page` pages, starting at the given page; every kept image passes the blacklist; the articles are exactly those the fetched pages keep, page by page in order |
| Legacy.CrawlFollowsPrevLinks | Scrap.py:58-63 | every fetched page but the last was left through its `‹ 上頁` link |
| Legacy.CrawlEndsWithoutLink | Scrap.py:59-61 | a walk that ended before the page limit ended on a page without a usable previous-page link |
| Legacy.CollectImagesAppend | Scrap.py:66-70 | collecting distributes over concatenation, and one article contributes its own images or nothing: the collected list is each article's images in article order |
| Legacy.CollectImages | Scrap.py:66-70 | a link is collected exactly when some article with images has it |
| Legacy.Main | Scrap.py:8-70 | the run succeeds exactly when the walk from the board index with the limit of 8 pages and yesterday's `M/DD` key does; it then returns the walk's articles' images in article order, every link passing the blacklist |
| Legacy.MainReturnsKeptImages | Scrap.py:8-70 | every image of every article that a row of a fetched page keeps is returned |
| NotionPages.Chunks | notionPageCreate.py:49-50 | there are ⌈n/100⌉ chunks; chunk k is the run of links starting at offset k times the chunk size, full except for the last chunk, which reaches the end of the list |
| NotionPages.ChunksUnique | notionPageCreate.py:49-50 | any split with that many chunks, each the run at its offset, is this one: which link lands in which chunk is fixed |
| NotionPages.ChunksRoundTrip | notionPageCreate.py:49-50 | concatenating the chunks gives back the date's links in order |
| NotionPages.PageIndexFromOffset | notionPageCreate.py:51 | the chunk starting at offset `k*size` gets page index `k+1` |
| NotionPages.PageTitlesDistinct | notionPageCreate.py:53 | pages of one date get pairwise distinct titles |
| NotionPages.PagesForDate | notionPageCreate.py:43-70 | a date with no links gets no page; otherwise one page per chunk, numbered from 1, titled as the source formats it, each with 1 to 100 blocks; page k embeds exactly the k-th run of links, full except on the last page |
| NotionPages.PagesForDateRoundTrip | notionPageCreate.py:61-70 | the embed blocks of a date's pages list exactly its links in order |
| NotionPages.PlanPagesRoundTrip | notionPageCreate.py:43-70 | the embed blocks of all pages list exactly all links, date by date |
| NotionPages.Publish | notionPageCreate.py:40-50 | with the configured chunk size every page holds between 1 and 100 blocks |
| Gallery.JsRem | image-gallery/script.js:45 | JavaScript `%` is NaN exactly for a zero divisor; otherwise it is smaller than the divisor in magnitude, takes the dividend's sign, and differs from the dividend by a multiple of the divisor, which fixes it |
| Gallery.UpdateGallery | image-gallery/script.js:24-41 | with no images nothing changes; otherwise only the counter changes, to the current position and the image count |
| Gallery.StartAutoplay | image-gallery/script.js:57-62 | the previous interval is cleared; with more than one image a new interval becomes the current one, and with tracked timers it is then the only live one; otherwise none is left live; the index and counter are unchanged |
| Gallery.StopAutoplay | image-gallery/script.js:64-67 | after stopping there is no current interval, the one that was current is no longer live, no interval was added, and the index and counter are unchanged |
| Gallery.ResetLeavesOneInterval | image-gallery/script.js:69-72 | a reset leaves exactly one live interval, the current one, when there is more than one image, and none otherwise; timer ids stay tracked |
| Gallery.OnKey | image-gallery/script.js:90-96 | Right/PageDown go to the next image, Left/PageUp to the previous one, and any other key does nothing |
| Gallery.NextPreservesValid | image-gallery/script.js:44-48 | next keeps the index in range and at most one interval live |
| Gallery.PrevPreservesValid | image-gallery/script.js:50-54 | previous keeps the index in range and at most one interval live |
| Gallery.OnKeyPreservesValid | image-gallery/script.js:90-96 | key handling keeps the index in range and at most one interval live |
| Gallery.InitValid | image-gallery/script.js:99-104 | initialisation with at least one image gives a state in range with counter `1 / N` |
| Gallery.PrevUndoesNext | image-gallery/script.js:44-54 | previous undoes next and next undoes previous |
| Gallery.NextTimesIndex | image-gallery/script.js:45 | k presses of next move the index k places round the circle |
| Gallery.NextFullCircle | image-gallery/script.js:45 | pressing next once per image returns to the starting image |
| Gallery.CounterReadsBack | image-gallery/script.js:30 | the counter is the one-based position, ` / ` and the image count, and its first field reads back as the position |

## Left out

- HTTP, HTML parsing and cookies are replaced by parameters. A listing page is its `r-ent` rows and its `btn wide` anchors. An article is the top-level nodes of `main-content`. Each request is assumed to answer the same way for the same URL.
- `strptime`'s leniency is left out. Its variants include single-digit fields and surrounding whitespace. A date div is modelled as either a readable month/day or unreadable text.
- Lower-casing covers ASCII letters only. The `cosplay` filter needs no more.
- The thread pool is not modelled, and neither is `time.sleep` or logging. Workers are run in task order. `as_completed` may deliver results in another order, which `Aggregation.CompletionOrderIrrelevant` covers. `fetch_and_extract_links` catches its own request errors, so the `except Exception` branch of the fold is not modelled.
- An imgur link is decided by one HEAD request with redirects followed (Scraper.py:23); its timeout and headers are not modelled.
- The Notion client calls are not modelled: `create_notion_page` and the block append. The model produces the planned pages instead. The module-level call `scrape_ptt_images()` at notionPageCreate.py:39 passes no arguments and would raise `TypeError` as written. The model starts from the date-keyed result.
- script.js is modelled as a state machine over the image count. The image URL array, the DOM and the 400 ms fade timeout are not modelled. Neither are the speed selector and the progress slider, which use `parseInt` of control values, nor the autoplay interval's firing. The source's array has five entries; the model takes any count.
- Scrap.py's `get_yesterday_date()` is the `target` parameter. The file's `__main__` print is not modelled.
- Listing.PrevPagePath: its contract says only that a returned path belongs to an anchor reading `‹ 上頁`. That the first such anchor decides is covered by `Legacy.FindNextPageTakesFirst` together with `Legacy.FindNextPageAgreesWithScraper`.
- Dates.IsoDate: years below 1000 are zero-padded to four digits, as `isoformat()` does. What `strftime('%Y')` prints for them depends on the C library; glibc does not pad. A scraped date reaches such a year only when the clock reads year 1000.

=== FILE: aggregate.dfy ===
/** The result fold of `scrape_ptt_images`: each finished article task adds
    its links to the bucket of its date, empty results add nothing, and the
    dictionary comes back ordered by date. */
module Aggregation {
  import opened Dates

  /** One entry of the returned dictionary. */
  datatype Bucket = Bucket(date: Date, links: seq<string>)

  /** A finished task as `as_completed` hands it over: the article's date and
      the links its worker returned. */
  datatype Finished = Finished(date: Date, links: seq<string>)

  /** Keys strictly ascending: the order of `dict(sorted(images_by_date.items()))`. */
  predicate SortedByDate(buckets: seq<Bucket>) {
    forall i, j :: 0 <= i < j < |buckets| ==> Before(buckets[i].date, buckets[j].date)
  }

  /** A key is created only together with its first non-empty link list. */
  predicate NoEmptyBucket(buckets: seq<Bucket>) {
    forall i :: 0 <= i < |buckets| ==> |buckets[i].links| > 0
  }

  predicate WellFormed(buckets: seq<Bucket>) {
    SortedByDate(buckets) && NoEmptyBucket(buckets)
  }

  function Keys(buckets: seq<Bucket>): set<Date> {
    set i | 0 <= i < |buckets| :: buckets[i].date
  }

  /** `images_by_date.get(d, [])`. */
  function Lookup(buckets: seq<Bucket>, d: Date): seq<string> {
    if |buckets| == 0 then []
    else if buckets[0].date == d then buckets[0].links
    else Lookup(buckets[1..], d)
  }

  lemma {:induction false} LookupAbsent(buckets: seq<Bucket>, d: Date)
    requires d !in Keys(buckets)
    ensures Lookup(buckets, d) == []
  {
    if |buckets| > 0 {
      assert buckets[0].date in Keys(buckets);
      assert Keys(buckets[1..]) <= Keys(buckets) by {
        forall e | e in Keys(buckets[1..]) ensures e in Keys(buckets) {
          var i :| 0 <= i < |buckets[1..]| && buckets[1..][i].date == e;
          assert buckets[i + 1].date == e;
        }
      }
      LookupAbsent(buckets[1..], d);
    }
  }

  lemma {:induction false} LookupPresent(buckets: seq<Bucket>, d: Date)
    requires NoEmptyBucket(buckets) && d in Keys(buckets)
    ensures |Lookup(buckets, d)| > 0
  {
    if buckets[0].date != d {
      var i :| 0 <= i < |buckets| && buckets[i].date == d;
      assert buckets[1..][i - 1].date == d;
      LookupPresent(buckets[1..], d);
    }
  }

  lemma KeysCons(b: Bucket, buckets: seq<Bucket>)
    ensures Keys([b] + buckets) == {b.date} + Keys(buckets)
  {
    var r := [b] + buckets;
    forall e | e in Keys(r) ensures e in {b.date} + Keys(buckets) {
      var i :| 0 <= i < |r| && r[i].date == e;
      if i > 0 { assert buckets[i - 1].date == e; }
    }
    forall e | e in Keys(buckets) ensures e in Keys(r) {
      var i :| 0 <= i < |buckets| && buckets[i].date == e;
      assert r[i + 1].date == e;
    }
    assert r[0].date == b.date;
  }

  /** The body of the fold: `if image_urls:` create the key if needed, then
      `extend`. The bucket list stays sorted. */
  function Merge(buckets: seq<Bucket>, d: Date, links: seq<string>): (r: seq<Bucket>)
    requires WellFormed(buckets)
    ensures WellFormed(r)
    ensures Keys(r) == if |links| > 0 then Keys(buckets) + {d} else Keys(buckets)
    ensures forall e :: Lookup(r, e) == Lookup(buckets, e) + (if e == d then links else [])
    decreases |buckets|, 1
  {
    if |links| == 0 then buckets
    else if |buckets| == 0 then
      KeysCons(Bucket(d, links), []);
      [Bucket(d, links)] + []
    else if buckets[0].date == d then MergeHere(buckets, d, links)
    else if Before(d, buckets[0].date) then MergeFront(buckets, d, links)
    else MergeBehind(buckets, d, links)
  }

  /** The case of `Merge` where `d` is the first key: extend its list. */
  function MergeHere(buckets: seq<Bucket>, d: Date, links: seq<string>): (r: seq<Bucket>)
    requires WellFormed(buckets) && |buckets| > 0 && |links| > 0 && buckets[0].date == d
    ensures WellFormed(r)
    ensures Keys(r) == Keys(buckets) + {d}
    ensures forall e :: Lookup(r, e) == Lookup(buckets, e) + (if e == d then links else [])
  {
    var r := [Bucket(d, buckets[0].links + links)] + buckets[1..];
    KeysCons(buckets[0], buckets[1..]);
    KeysCons(r[0], buckets[1..]);
    assert buckets == [buckets[0]] + buckets[1..];
    assert r[1..] == buckets[1..];
    assert forall i :: 0 <= i < |r| ==> r[i].date == buckets[i].date;
    r
  }

  /** The case of `Merge` where `d` comes before every key: a new first
      bucket. */
  function MergeFront(buckets: seq<Bucket>, d: Date, links: seq<string>): (r: seq<Bucket>)
    requires WellFormed(buckets) && |buckets| > 0 && |links| > 0 && Before(d, buckets[0].date)
    ensures WellFormed(r)
    ensures Keys(r) == Keys(buckets) + {d}
    ensures forall e :: Lookup(r, e) == Lookup(buckets, e) + (if e == d then links else [])
  {
    var r := [Bucket(d, links)] + buckets;
    KeysCons(Bucket(d, links), buckets);
    assert d !in Keys(buckets) by {
      forall i | 0 <= i < |buckets| ensures buckets[i].date != d {
        if i > 0 { assert Before(buckets[0].date, buckets[i].date); }
      }
    }
    LookupAbsent(buckets, d);
    assert r[1..] == buckets;
    assert SortedByDate(r) by {
      forall i, j | 0 <= i < j < |r| ensures Before(r[i].date, r[j].date) {
        if i == 0 && j > 1 { assert Before(buckets[0].date, buckets[j - 1].date); }
      }
    }
    r
  }

  /** The case of `Merge` where `d` lies after the first key: keep that
      bucket and merge into the rest. */
  function MergeBehind(buckets: seq<Bucket>, d: Date, links: seq<string>): (r: seq<Bucket>)
    requires WellFormed(buckets) && |buckets| > 0 && |links| > 0 && Before(buckets[0].date, d)
    ensures WellFormed(r)
    ensures Keys(r) == Keys(buckets) + {d}
    ensures forall e :: Lookup(r, e) == Lookup(buckets, e) + (if e == d then links else [])
    decreases |buckets|, 0
  {
    var rest := Merge(buckets[1..], d, links);
    KeysCons(buckets[0], buckets[1..]);
    KeysCons(buckets[0], rest);
    assert buckets == [buckets[0]] + buckets[1..];
    var r := [buckets[0]] + rest;
    assert SortedByDate(r) by {
      forall j | 0 < j < |r| ensures Before(r[0].date, r[j].date) {
        assert r[j] == rest[j - 1];
        assert rest[j - 1].date in Keys(rest);
        if r[j].date != d {
          var i :| 0 <= i < |buckets[1..]| && buckets[1..][i].date == r[j].date;
          assert buckets[i + 1].date == r[j].date;
        }
      }
    }
    r
  }

  /** Every link of date `d`, in the order the tasks finished. */
  function LinksFor(finished: seq<Finished>, d: Date): seq<string> {
    if |finished| == 0 then []
    else
      var last := finished[|finished| - 1];
      LinksFor(finished[..|finished| - 1], d) + (if last.date == d then last.links else [])
  }

  /** The whole fold, taking the tasks in completion order. */
  function Aggregate(finished: seq<Finished>): (r: seq<Bucket>)
    ensures WellFormed(r)
    ensures forall d :: Lookup(r, d) == LinksFor(finished, d)
    ensures forall d :: d in Keys(r) <==> exists i :: 0 <= i < |finished| && finished[i].date == d && |finished[i].links| > 0
  {
    if |finished| == 0 then []
    else
      var prefix := finished[..|finished| - 1];
      var last := finished[|finished| - 1];
      var acc := Aggregate(prefix);
      var r := Merge(acc, last.date, last.links);
      assert forall i :: 0 <= i < |prefix| ==> prefix[i] == finished[i];
      r
  }

  lemma {:induction false} LinksForAppend(a: seq<Finished>, b: seq<Finished>, d: Date)
    ensures LinksFor(a + b, d) == LinksFor(a, d) + LinksFor(b, d)
    decreases |b|
  {
    if |b| == 0 {
      assert a + b == a;
    } else {
      var last := b[|b| - 1];
      assert (a + b)[..|a + b| - 1] == a + b[..|b| - 1];
      LinksForAppend(a, b[..|b| - 1], d);
    }
  }

  function Own(x: Finished, d: Date): seq<string> {
    if x.date == d then x.links else []
  }

  lemma LinksForSplit(a: seq<Finished>, x: Finished, b: seq<Finished>, d: Date)
    ensures LinksFor(a + [x] + b, d) == LinksFor(a, d) + Own(x, d) + LinksFor(b, d)
  {
    LinksForAppend(a + [x], b, d);
    LinksForAppend(a, [x], d);
    assert [x][..0] == [];
    assert LinksFor([x], d) == LinksFor([], d) + Own(x, d);
  }

  /** Taking one finished task out of the sequence removes exactly its links
      (when they belong to `d`) from the multiset of `d`'s links. */
  lemma LinksForRemove(finished: seq<Finished>, i: nat, d: Date)
    requires i < |finished|
    ensures multiset(LinksFor(finished, d)) ==
              multiset(LinksFor(finished[..i] + finished[i + 1..], d)) + multiset(Own(finished[i], d))
  {
    var a := finished[..i];
    var b := finished[i + 1..];
    assert finished == a + [finished[i]] + b;
    LinksForSplit(a, finished[i], b, d);
    LinksForAppend(a, b, d);
    MultisetOfThree(LinksFor(a, d), Own(finished[i], d), LinksFor(b, d));
  }

  lemma MultisetOfThree<T>(x: seq<T>, y: seq<T>, z: seq<T>)
    ensures multiset(x + y + z) == multiset(x + z) + multiset(y)
  {
  }

  /** The fold does not depend on the order in which tasks finish: any
      reordering yields the same keys and, per date, the same links up to
      order. */
  lemma {:induction false} CompletionOrderIrrelevant(a: seq<Finished>, b: seq<Finished>, d: Date)
    requires multiset(a) == multiset(b)
    ensures multiset(Lookup(Aggregate(a), d)) == multiset(Lookup(Aggregate(b), d))
    ensures d in Keys(Aggregate(a)) <==> d in Keys(Aggregate(b))
    decreases |a|
  {
    SameLinksUpToOrder(a, b, d);
    var ra := Aggregate(a);
    var rb := Aggregate(b);
    if d in Keys(ra) {
      LookupPresent(ra, d);
      if d !in Keys(rb) { LookupAbsent(rb, d); }
    }
    if d in Keys(rb) {
      LookupPresent(rb, d);
      if d !in Keys(ra) { LookupAbsent(ra, d); }
    }
  }

  lemma {:induction false} SameLinksUpToOrder(a: seq<Finished>, b: seq<Finished>, d: Date)
    requires multiset(a) == multiset(b)
    ensures multiset(LinksFor(a, d)) == multiset(LinksFor(b, d))
    decreases |a|
  {
    if |a| == 0 {
      assert |b| == |multiset(b)| == 0;
    } else {
      var x := a[|a| - 1];
      var prefix := a[..|a| - 1];
      assert a == prefix + [x];
      assert x in multiset(b);
      var j :| 0 <= j < |b| && b[j] == x;
      var rest := b[..j] + b[j + 1..];
      RemoveOne(a, |a| - 1);
      RemoveOne(b, j);
      assert a[..|a| - 1] + a[|a|..] == prefix;
      assert multiset(prefix) == multiset(rest) by {
        forall y ensures multiset(prefix)[y] == multiset(rest)[y] {
          assert multiset(a)[y] == multiset(b)[y];
        }
      }
      SameLinksUpToOrder(prefix, rest, d);
      LinksForRemove(b, j, d);
      assert LinksFor(a, d) == LinksFor(prefix, d) + Own(x, d);
    }
  }

  lemma RemoveOne<T>(s: seq<T>, j: nat)
    requires j < |s|
    ensures multiset(s) == multiset(s[..j] + s[j + 1..]) + multiset{s[j]}
  {
    assert s == s[..j] + [s[j]] + s[j + 1..];
  }

  /** Every bucket of the fold comes from some finished task of its date. */
  lemma BucketOrigin(finished: seq<Finished>, b: Bucket) returns (i: nat)
    requires b in Aggregate(finished)
    ensures i < |finished| && finished[i].date == b.date
  {
    var r := Aggregate(finished);
    var k :| 0 <= k < |r| && r[k] == b;
    assert b.date in Keys(r);
    i :| 0 <= i < |finished| && finished[i].date == b.date && |finished[i].links| > 0;
  }

  /** Every link in a bucket was returned by some finished task of its date. */
  lemma LinkOrigin(finished: seq<Finished>, b: Bucket, l: string) returns (j: nat)
    requires b in Aggregate(finished) && l in b.links
    ensures j < |finished| && finished[j].date == b.date && l in finished[j].links
  {
    LookupFinds(Aggregate(finished), b);
    j := LinksForOrigin(finished, b.date, l);
  }

  /** In a sorted bucket list a bucket is what looking up its date returns. */
  lemma {:induction false} LookupFinds(buckets: seq<Bucket>, b: Bucket)
    requires SortedByDate(buckets) && b in buckets
    ensures Lookup(buckets, b.date) == b.links
  {
    if buckets[0] != b {
      var i :| 0 <= i < |buckets| && buckets[i] == b;
      assert Before(buckets[0].date, buckets[i].date);
      assert buckets[1..][i - 1] == b;
      LookupFinds(buckets[1..], b);
    }
  }

  /** Every link of a date comes from some finished task of that date. */
  lemma {:induction false} LinksForOrigin(finished: seq<Finished>, d: Date, l: string) returns (j: nat)
    requires l in LinksFor(finished, d)
    ensures j < |finished| && finished[j].date == d && l in finished[j].links
  {
    var prefix := finished[..|finished| - 1];
    var last := finished[|finished| - 1];
    if last.date == d && l in last.links {
      j := |finished| - 1;
    } else {
      j := LinksForOrigin(prefix, d, l);
    }
  }

  /** Completeness of the fold: every link a task returned is filed under
      that task's date. */
  lemma {:induction false} LinksForCollects(finished: seq<Finished>, i: nat)
    requires i < |finished|
    ensures forall l :: l in finished[i].links ==> l in Lookup(Aggregate(finished), finished[i].date)
  {
    var d := finished[i].date;
    LinksForAppend(finished[..i], finished[i..], d);
    assert finished == finished[..i] + finished[i..];
    LinksForAppend([finished[i]], finished[i + 1..], d);
    assert finished[i..] == [finished[i]] + finished[i + 1..];
    assert LinksFor([finished[i]], d) == finished[i].links by {
      assert [finished[i]][..0] == [];
    }
  }
}

=== FILE: arith.dfy ===
/** The few facts about multiplication and remainder that the chunking and
    the gallery's wrap-around rely on. */
module Arith {
  lemma MulMonotone(a: nat, b: nat, s: nat)
    requires a <= b
    ensures a * s <= b * s
  {
    assert b * s == a * s + (b - a) * s;
  }

  lemma MulSucc(a: nat, s: nat)
    ensures (a + 1) * s == a * s + s
  {
  }

  /** A multiple of `k` leaves no remainder, whatever its sign. */
  lemma MultipleMod(c: int, k: nat)
    requires k > 0
    ensures (c * k) % k == 0
  {
    var z := c * k;
    var e := c - z / k;
    assert z % k == e * k;
    if e >= 1 {
      MulMonotone(1, e, k);
    } else if e <= -1 {
      MulMonotone(1, -e, k);
    }
  }

  /** The remainder is the unique `r` in `[0, n)` with `a == q * n + r`. */
  lemma ModUnique(a: nat, n: nat, q: nat, r: nat)
    requires n > 0 && r < n && a == q * n + r
    ensures a / n == q && a % n == r
  {
    var q' := a / n;
    var r' := a % n;
    assert a == q' * n + r';
    if q' < q {
      MulMonotone(q' + 1, q, n);
      MulSucc(q', n);
    } else if q' > q {
      MulMonotone(q + 1, q', n);
      MulSucc(q, n);
    }
  }
}

=== FILE: config.dfy ===
/** The shared constants of shareConstant.py and the literals the scrapers
    hard-code. */
module Config {
  import opened Dates

  const PttBaseUrl: string := "https://www.ptt.cc"
  /** The board's newest listing page, where both crawlers start. */
  const BoardIndexPath: string := "/bbs/Beauty/index.html"

  /** Substrings that disqualify an image link (social and video sites). */
  const ImageBlacklist: seq<string> :=
    ["instagram", "facebook", "tiktok", "https://x.com/", "twitter", "youtube", "https://youtu", "threads"]

  /** How many embed blocks go on one Notion page. */
  const NotionChunkSize: nat := 100

  const MaxPage: nat := 100
  const StartDate: Date := Date(2025, 9, 12)
  const EndDate: Date := Date(2025, 9, 19)

  /** The title tag a wanted article carries, and the older crawler's markers. */
  const SubjectTag: string := "[正妹]"
  const DeletedMarker: string := "本文已被刪除"
  const PrevPageText: string := "‹ 上頁"
}

=== FILE: dates.dfy ===
/** Calendar dates as Python's `datetime.date` has them: proleptic Gregorian,
    years 1 through 9999, compared field by field. */
module Dates {
  import opened Text

  datatype Date = Date(year: int, month: int, day: int)

  predicate IsLeapYear(y: int) {
    y % 4 == 0 && (y % 100 != 0 || y % 400 == 0)
  }

  function DaysInMonth(y: int, m: int): (n: int)
    requires 1 <= m <= 12
    ensures 28 <= n <= 31
    ensures n == 28 <==> m == 2 && !IsLeapYear(y)
    ensures n == 29 <==> m == 2 && IsLeapYear(y)
    ensures n == 30 <==> m == 4 || m == 6 || m == 9 || m == 11
  {
    if m == 2 then (if IsLeapYear(y) then 29 else 28)
    else if m == 4 || m == 6 || m == 9 || m == 11 then 30
    else 31
  }

  /** The dates `datetime.date` accepts: any other combination raises `ValueError`. */
  predicate Valid(d: Date) {
    && 1 <= d.year <= 9999
    && 1 <= d.month <= 12
    && 1 <= d.day <= DaysInMonth(d.year, d.month)
  }

  /** `a < b` on Python dates. */
  predicate Before(a: Date, b: Date) {
    || a.year < b.year
    || (a.year == b.year && a.month < b.month)
    || (a.year == b.year && a.month == b.month && a.day < b.day)
  }

  /** `a <= b` on Python dates. */
  predicate NotAfter(a: Date, b: Date) {
    !Before(b, a)
  }

  /** `Before` is a strict total order, which the sorted result map relies on. */
  lemma BeforeIsStrictTotalOrder(a: Date, b: Date, c: Date)
    ensures !Before(a, a)
    ensures Before(a, b) ==> !Before(b, a)
    ensures Before(a, b) && Before(b, c) ==> Before(a, c)
    ensures a == b || Before(a, b) || Before(b, a)
  {
  }

  /** `d.isoformat()`, and `d.strftime('%Y-%m-%d')` for the years 1000 through
      9999: four-digit year, two-digit month and day. Below 1000 the year is
      zero-padded here, as `isoformat()` does; `strftime` leaves that to the C
      library. */
  function IsoDate(d: Date): (r: string)
    requires Valid(d)
    ensures |r| == 10 && r[4] == '-' && r[7] == '-'
    ensures AllDigits(r[..4]) && AllDigits(r[5..7]) && AllDigits(r[8..])
    ensures DigitsValue(r[..4]) == d.year
    ensures DigitsValue(r[5..7]) == d.month && DigitsValue(r[8..]) == d.day
  {
    var y := ZeroPad(d.year, 4);
    var m := ZeroPad(d.month, 2);
    var dd := ZeroPad(d.day, 2);
    assert |y| == 4 by { ShortNumber(d.year, 4); }
    assert |m| == 2 by { ShortNumber(d.month, 2); }
    assert |dd| == 2 by { ShortNumber(d.day, 2); }
    var r := y + "-" + m + "-" + dd;
    assert r[..4] == y && r[5..7] == m && r[8..] == dd;
    r
  }

  /** Distinct valid dates have distinct ISO forms. */
  lemma IsoDateInjective(a: Date, b: Date)
    requires Valid(a) && Valid(b)
    ensures IsoDate(a) == IsoDate(b) ==> a == b
  {
  }
}

=== FILE: gallery.dfy ===
/** The navigation state machine of image-gallery/script.js: the current
    index over `n` images, the counter text, and the autoplay interval.
    Timers are modelled by their ids: `setInterval` hands out `nextId` and
    `clearInterval` removes an id from the set of live intervals. */
module Gallery {
  import opened Outcomes
  import opened Text
  import opened Arith

  /** A JavaScript number as the gallery can produce it: an integer, or NaN
      from `x % 0`. */
  datatype JsNumber = Num(value: int) | NaN

  function Abs(b: int): nat {
    if b < 0 then -b else b
  }

  /** JavaScript's `%`: the result takes the sign of the dividend, and a zero
      divisor gives NaN. */
  function JsRem(a: int, b: int): (r: JsNumber)
    ensures b == 0 <==> r == NaN
    ensures r.Num? ==> Abs(r.value) < Abs(b)
    ensures r.Num? && a >= 0 ==> r.value >= 0
    ensures r.Num? && a < 0 ==> r.value <= 0
    ensures a >= 0 && b > 0 ==> r == Num(a % b)
    ensures r.Num? ==> (a - r.value) % Abs(b) == 0
  {
    if b == 0 then NaN else Num(TruncatedRem(a, Abs(b)))
  }

  /** The remainder of a division that truncates toward zero. */
  function TruncatedRem(a: int, k: nat): (r: int)
    requires k > 0
    ensures Abs(r) < k
    ensures a >= 0 ==> r == a % k
    ensures a < 0 ==> r <= 0
    ensures (a - r) % k == 0
  {
    if a >= 0 then
      RemainderLeavesMultiple(a, k);
      a % k
    else
      RemainderLeavesMultiple(-a, k);
      -((-a) % k)
  }

  /** Taking the remainder off `x`, or adding it to `-x`, leaves a multiple
      of `k`. */
  lemma RemainderLeavesMultiple(x: int, k: nat)
    requires x >= 0 && k > 0
    ensures (x - x % k) % k == 0
    ensures (-x + x % k) % k == 0
  {
    var q := x / k;
    assert x - x % k == q * k;
    MultipleMod(q, k);
    assert -x + x % k == (-q) * k;
    MultipleMod(-q, k);
  }

  datatype Gallery = Gallery(
    count: nat,              // images.length
    index: JsNumber,         // currentIndex
    counter: string,         // imageCounter.textContent
    interval: Option<nat>,   // autoplayIntervalId
    live: set<nat>,          // intervals scheduled and not cleared
    nextId: nat)             // the id the next setInterval returns

  /** `${x}` for a JavaScript number. */
  function NumberText(x: JsNumber): string {
    match x
    case Num(i) => IntToString(i)
    case NaN => "NaN"
  }

  function Plus(x: JsNumber, k: int): JsNumber {
    match x
    case Num(i) => Num(i + k)
    case NaN => NaN
  }

  /** The counter text `${currentIndex + 1} / ${images.length}`. */
  function CounterText(index: JsNumber, count: nat): string {
    NumberText(Plus(index, 1)) + " / " + NatToString(count)
  }

  /** `updateGallery`: nothing when there are no images; otherwise, once the
      fade is over, the counter shows the current position. */
  function UpdateGallery(g: Gallery): (r: Gallery)
    ensures g.count == 0 ==> r == g
    ensures g.count > 0 ==> r == g.(counter := CounterText(g.index, g.count))
  {
    if g.count == 0 then g else g.(counter := CounterText(g.index, g.count))
  }

  /** `if (autoplayIntervalId)`: set and non-zero. */
  predicate Running(g: Gallery) {
    g.interval.Some? && g.interval.value != 0
  }

  /** `startAutoplay`. */
  function StartAutoplay(g: Gallery): (r: Gallery)
    ensures r.count == g.count && r.index == g.index && r.counter == g.counter
    ensures g.count > 1 ==> r.interval == Some(g.nextId) && g.nextId in r.live
    ensures g.count <= 1 ==> r.interval == g.interval && r.live <= g.live
    ensures Running(g) && g.interval.value != g.nextId ==> g.interval.value !in r.live
    ensures TimersTracked(g) ==> r.live == if g.count > 1 then {g.nextId} else {}
  {
    var cleared := if Running(g) then g.live - {g.interval.value} else g.live;
    if g.count > 1 then
      g.(interval := Some(g.nextId), live := cleared + {g.nextId}, nextId := g.nextId + 1)
    else
      g.(live := cleared)
  }

  /** `stopAutoplay`: `clearInterval(null)` does nothing. */
  function StopAutoplay(g: Gallery): (r: Gallery)
    ensures r.interval == None
    ensures r.count == g.count && r.index == g.index && r.counter == g.counter
    ensures r.live <= g.live && r.nextId == g.nextId
    ensures g.interval.Some? ==> g.interval.value !in r.live
  {
    var cleared := if g.interval.Some? then g.live - {g.interval.value} else g.live;
    g.(interval := None, live := cleared)
  }

  function ResetAutoplay(g: Gallery): Gallery {
    StartAutoplay(StopAutoplay(g))
  }

  function NextIndex(index: JsNumber, count: nat): JsNumber {
    match index
    case Num(i) => JsRem(i + 1, count)
    case NaN => NaN
  }

  function PrevIndex(index: JsNumber, count: nat): JsNumber {
    match index
    case Num(i) => JsRem(i - 1 + count, count)
    case NaN => NaN
  }

  /** `nextImage`. */
  function NextImage(g: Gallery): Gallery {
    ResetAutoplay(UpdateGallery(g.(index := NextIndex(g.index, g.count))))
  }

  /** `prevImage`. */
  function PrevImage(g: Gallery): Gallery {
    ResetAutoplay(UpdateGallery(g.(index := PrevIndex(g.index, g.count))))
  }

  /** The `keydown` listener. */
  function OnKey(g: Gallery, key: string): (r: Gallery)
    ensures key == "ArrowRight" || key == "PageDown" ==> r == NextImage(g)
    ensures key == "ArrowLeft" || key == "PageUp" ==> r == PrevImage(g)
    ensures key !in {"ArrowRight", "PageDown", "ArrowLeft", "PageUp"} ==> r == g
  {
    if key == "ArrowRight" || key == "PageDown" then NextImage(g)
    else if key == "ArrowLeft" || key == "PageUp" then PrevImage(g)
    else g
  }

  /** `init`, starting from the page's initial counter text, no interval
      and the first timer id `firstId` (browsers hand out positive ids). */
  function Init(count: nat, counter: string, firstId: nat): Gallery
    requires firstId > 0
  {
    StartAutoplay(UpdateGallery(Gallery(count, Num(0), counter, None, {}, firstId)))
  }

  // ---- Invariants ----

  predicate InRange(g: Gallery) {
    g.count > 0 && g.index.Num? && 0 <= g.index.value < g.count
  }

  /** Every live interval is the recorded one; ids are positive and below
      `nextId`. */
  predicate TimersTracked(g: Gallery) {
    && g.nextId > 0
    && (g.interval.Some? ==> 0 < g.interval.value < g.nextId)
    && (forall id :: id in g.live ==> g.interval == Some(id))
  }

  predicate Valid(g: Gallery) {
    InRange(g) && TimersTracked(g)
  }

  lemma NextIndexInRange(i: int, count: nat)
    requires 0 <= i < count
    ensures NextIndex(Num(i), count) == Num(if i + 1 == count then 0 else i + 1)
  {
    if i + 1 == count {
      ModUnique(i + 1, count, 1, 0);
    } else {
      ModUnique(i + 1, count, 0, i + 1);
    }
  }

  lemma PrevIndexInRange(i: int, count: nat)
    requires 0 <= i < count
    ensures PrevIndex(Num(i), count) == Num(if i == 0 then count - 1 else i - 1)
  {
    if i == 0 {
      ModUnique(count - 1, count, 0, count - 1);
    } else {
      ModUnique(i - 1 + count, count, 1, i - 1);
    }
  }

  /** `resetAutoplay` leaves exactly one live interval, and that only when
      there is more than one image. */
  lemma ResetLeavesOneInterval(g: Gallery)
    requires TimersTracked(g)
    ensures var r := ResetAutoplay(g);
      && TimersTracked(r)
      && (r.interval.Some? <==> g.count > 1)
      && r.live == (if g.count > 1 then {r.interval.value} else {})
  {
    var s := StopAutoplay(g);
    assert s.live == {};
  }

  /** Next and previous stay in range and keep the timers tracked. */
  lemma NextPreservesValid(g: Gallery)
    requires Valid(g)
    ensures Valid(NextImage(g))
  {
    NextIndexInRange(g.index.value, g.count);
    ResetLeavesOneInterval(UpdateGallery(g.(index := NextIndex(g.index, g.count))));
  }

  lemma PrevPreservesValid(g: Gallery)
    requires Valid(g)
    ensures Valid(PrevImage(g))
  {
    PrevIndexInRange(g.index.value, g.count);
    ResetLeavesOneInterval(UpdateGallery(g.(index := PrevIndex(g.index, g.count))));
  }

  lemma OnKeyPreservesValid(g: Gallery, key: string)
    requires Valid(g)
    ensures Valid(OnKey(g, key))
  {
    NextPreservesValid(g);
    PrevPreservesValid(g);
  }

  lemma InitValid(count: nat, counter: string, firstId: nat)
    requires count > 0 && firstId > 0
    ensures Valid(Init(count, counter, firstId))
    ensures Init(count, counter, firstId).counter == "1 / " + NatToString(count)
  {
  }

  /** Previous undoes next, and next undoes previous. */
  lemma PrevUndoesNext(g: Gallery)
    requires InRange(g)
    ensures PrevImage(NextImage(g)).index == g.index
    ensures NextImage(PrevImage(g)).index == g.index
  {
    var i := g.index.value;
    NextIndexInRange(i, g.count);
    PrevIndexInRange(i, g.count);
    var j := if i + 1 == g.count then 0 else i + 1;
    PrevIndexInRange(j, g.count);
    var k := if i == 0 then g.count - 1 else i - 1;
    NextIndexInRange(k, g.count);
  }

  function NextTimes(g: Gallery, k: nat): Gallery {
    if k == 0 then g else NextImage(NextTimes(g, k - 1))
  }

  /** One place round a circle of `n` positions. */
  function Step(a: nat, n: nat): nat {
    if a + 1 == n then 0 else a + 1
  }

  /** The position `k` places round a circle of `n` from `i`. */
  function Turn(i: nat, k: nat, n: nat): nat {
    if k == 0 then i else Step(Turn(i, k - 1, n), n)
  }

  /** Turning `k` places is adding `k` and taking the remainder. */
  lemma {:induction false} TurnIsRemainder(i: nat, k: nat, n: nat)
    requires i < n
    ensures Turn(i, k, n) == (i + k) % n
  {
    if k == 0 {
      ModUnique(i, n, 0, i);
    } else {
      TurnIsRemainder(i, k - 1, n);
      ModStep(i + k - 1, n);
    }
  }

  lemma NextImageIndex(g: Gallery)
    requires InRange(g)
    ensures var r := NextImage(g);
      r.count == g.count && r.index == Num(Step(g.index.value, g.count))
  {
    NextIndexInRange(g.index.value, g.count);
  }

  /** After `k` presses of next the index has moved `k` places round. */
  lemma {:induction false} NextTimesIndex(g: Gallery, k: nat)
    requires InRange(g)
    ensures InRange(NextTimes(g, k))
    ensures NextTimes(g, k).count == g.count
    ensures NextTimes(g, k).index == Num(Turn(g.index.value, k, g.count))
  {
    if k > 0 {
      NextTimesIndex(g, k - 1);
      NextImageIndex(NextTimes(g, k - 1));
    }
  }

  /** Stepping a remainder by one and wrapping is the remainder of the
      successor. */
  lemma ModStep(a: nat, n: nat)
    requires n > 0
    ensures (if a % n + 1 == n then 0 else a % n + 1) == (a + 1) % n
  {
    var q := a / n;
    var r := a % n;
    assert a == q * n + r;
    MulSucc(q, n);
    if r + 1 == n {
      ModUnique(a + 1, n, q + 1, 0);
    } else {
      ModUnique(a + 1, n, q, r + 1);
    }
  }

  /** Pressing next once per image comes back to the starting image. */
  lemma NextFullCircle(g: Gallery)
    requires InRange(g)
    ensures NextTimes(g, g.count).index == g.index
  {
    NextTimesIndex(g, g.count);
    FullTurn(g.index.value, g.count);
  }

  /** `n` places round a circle of `n` is back at the start. */
  lemma FullTurn(i: nat, n: nat)
    requires i < n
    ensures Turn(i, n, n) == i
  {
    TurnIsRemainder(i, n, n);
    ModUnique(i + n, n, 1, i);
  }

  /** The counter shows the one-based position and the image count, and
      both read back. */
  lemma CounterReadsBack(g: Gallery)
    requires InRange(g)
    ensures var c := UpdateGallery(g).counter;
      var head := NatToString(g.index.value + 1);
      && c == head + " / " + NatToString(g.count)
      && DigitsValue(c[..|head|]) == g.index.value + 1
      && c[|head|..|head| + 3] == " / "
      && DigitsValue(c[|head| + 3..]) == g.count
  {
    var c := UpdateGallery(g).counter;
    var head := NatToString(g.index.value + 1);
    assert c[..|head|] == head;
    assert c[|head| + 3..] == NatToString(g.count);
    NatToStringRoundTrip(g.index.value + 1);
    NatToStringRoundTrip(g.count);
  }
}

=== FILE: legacy.dfy ===
/** Scrap.py, the older single-day crawler: it walks back at most
    `max_page` listing pages, keeps the rows dated exactly on the target day,
    extracts each kept article's links (retrying once on HTTP 429) and
    returns all links concatenated. Unlike Scraper.py it catches almost
    nothing, so most malformed input ends the run with an exception. */
module Legacy {
  import opened Outcomes
  import opened Text
  import opened Config
  import opened Dates
  import opened Links
  import Listing

  /** The exceptions that escape `Main`. */
  datatype Fault =
    | ListingRequestFailed   // `session.get` on a listing page raised
    | NoDateDiv              // `article.find("div", class_="date").text` on `None`
    | NoTitleDiv             // `title_div.text` on `None`
    | TitleHrefMissing       // `base_url + None`
    | PrevLinkWithoutHref    // `link.attrs["href"]` raised `KeyError`
    | ArticleRequestFailed   // an article request raised something other than `TooManyRedirects`
    | BadRetryAfter          // `int(...)` or `time.sleep(...)` rejected the `Retry-After` value
    | NoMainContent          // `main_content.contents` on `None`

  /** Index of the first `c` in `s` (Python's `s.index(c)`). */
  function IndexOf(s: string, c: char): (k: nat)
    requires c in s
    ensures k < |s| && s[k] == c && c !in s[..k]
  {
    if s[0] == c then 0
    else
      var k := 1 + IndexOf(s[1..], c);
      assert s[..k] == [s[0]] + s[1..][..k - 1];
      k
  }

  /** `value` is the stripped text after the first `]` of `title`, at `k`. */
  predicate SplitsAt(title: string, k: int, value: string) {
    0 <= k < |title| && title[k] == ']' && ']' !in title[..k] && value == Trim(title[k + 1..])
  }

  /** `SplitTitle`: drop deleted and unbracketed titles, otherwise keep the
      stripped text after the first `]`. */
  function SplitTitle(title: string): (r: Option<string>)
    ensures r.None? <==> Contains(title, DeletedMarker) || '[' !in title || ']' !in title
    ensures r.Some? ==> exists k :: SplitsAt(title, k, r.value)
  {
    if Contains(title, DeletedMarker) || '[' !in title || ']' !in title then None
    else
      var k := IndexOf(title, ']');
      assert SplitsAt(title, k, Trim(title[k + 1..]));
      Some(Trim(title[k + 1..]))
  }

  /** `FindNextPage`: the `href` of the first `btn wide` anchor whose text is
      exactly `‹ 上頁`; `None` when there is none; `KeyError` when that anchor
      has no `href`. */
  function FindNextPage(nav: seq<Listing.NavLink>): (r: Result<Option<string>, Fault>)
    ensures r.Ok? && r.value.None? <==> forall i :: 0 <= i < |nav| ==> nav[i].text != PrevPageText
    ensures r.Err? ==> r.error == PrevLinkWithoutHref
  {
    if |nav| == 0 then Ok(None)
    else if nav[0].text == PrevPageText then
      match nav[0].href
      case None => Err(PrevLinkWithoutHref)
      case Some(h) => Ok(Some(h))
    else
      assert forall i :: 1 <= i < |nav| ==> nav[i] == nav[1..][i - 1];
      FindNextPage(nav[1..])
  }

  /** The path `FindNextPage` returns is the `href` of the first anchor with
      the previous-page text; it raises exactly when that anchor has none. */
  lemma {:induction false} FindNextPageTakesFirst(nav: seq<Listing.NavLink>, i: nat)
    requires i < |nav| && nav[i].text == PrevPageText
    requires forall j :: 0 <= j < i ==> nav[j].text != PrevPageText
    ensures nav[i].href.Some? ==> FindNextPage(nav) == Ok(nav[i].href)
    ensures nav[i].href.None? ==> FindNextPage(nav) == Err(PrevLinkWithoutHref)
  {
    if i > 0 {
      assert forall j :: 0 <= j < i - 1 ==> nav[1..][j] == nav[j + 1];
      FindNextPageTakesFirst(nav[1..], i - 1);
    }
  }

  /** Both revisions pick the same anchor: where `FindNextPage` returns a
      path, Scraper.py's lookup finds the same one, and where it raises,
      Scraper.py sees no usable link. */
  lemma {:induction false} FindNextPageAgreesWithScraper(nav: seq<Listing.NavLink>)
    ensures FindNextPage(nav).Ok? ==> FindNextPage(nav).value == Listing.PrevPagePath(nav)
    ensures FindNextPage(nav).Err? ==> Listing.PrevPagePath(nav).None?
  {
    if |nav| > 0 && nav[0].text != PrevPageText {
      FindNextPageAgreesWithScraper(nav[1..]);
    }
  }

  /** `f"{month}/{day:02d}"`, the target-day key compared with each row's
      date text. */
  function DateKey(month: nat, day: nat): string {
    NatToString(month) + "/" + ZeroPad(day, 2)
  }

  /** The key is unambiguous: different days give different keys, so the
      exact-match filter selects one calendar day per year. */
  lemma DateKeyInjective(m1: nat, d1: nat, m2: nat, d2: nat)
    requires DateKey(m1, d1) == DateKey(m2, d2)
    ensures m1 == m2 && d1 == d2
  {
    var a := NatToString(m1);
    var b := NatToString(m2);
    var key := DateKey(m1, d1);
    SlashAfterMonth(m1, d1);
    SlashAfterMonth(m2, d2);
    assert |a| == |b| == IndexOf(key, '/');
    assert a == key[..|a|] && b == key[..|b|];
    NatToStringInjective(m1, m2);
    assert ZeroPad(d1, 2) == key[|a| + 1..] == ZeroPad(d2, 2);
  }

  /** `s.index(c)` is the one position holding `c` with none before it. */
  lemma IndexOfUnique(s: string, c: char, j: nat)
    requires j < |s| && s[j] == c && c !in s[..j]
    ensures IndexOf(s, c) == j
  {
    var k := IndexOf(s, c);
    assert forall i :: 0 <= i < j ==> s[..j][i] == s[i];
    assert forall i :: 0 <= i < k ==> s[..k][i] == s[i];
  }

  /** Month unpadded, day padded to two digits. */
  lemma DateKeyExamples()
    ensures DateKey(9, 5) == "9/05" && DateKey(12, 25) == "12/25"
  {
    assert NatToString(12) == "12";
    assert NatToString(25) == "25";
  }

  /** The first `/` of a key sits right after the month's digits. */
  lemma SlashAfterMonth(month: nat, day: nat)
    ensures var key := DateKey(month, day);
      '/' in key && IndexOf(key, '/') == |NatToString(month)|
  {
    var a := NatToString(month);
    var key := DateKey(month, day);
    assert key[|a|] == '/';
    assert key[..|a|] == a;
    assert forall i :: 0 <= i < |a| ==> IsDigit(a[i]);
    IndexOfUnique(key, '/', |a|);
  }

  /** The value of a `Retry-After` header as `int()` sees it. */
  datatype RetryAfter = Seconds(n: int) | NotAnInteger

  /** A response to `session.get(url, cookies=cookies)`. */
  datatype Response = Response(status: int, retryAfter: Option<RetryAfter>, mainContent: Option<seq<Node>>)

  /** What one article request did: answered, raised `TooManyRedirects`
      (caught), or raised another request exception (not caught). */
  datatype ArticleGet = Got(response: Response) | TooManyRedirects | OtherRequestError

  /** The longest sleep CPython's `time.sleep` accepts: it holds the
      duration as a signed 64-bit count of nanoseconds, so whole seconds up
      to `(2^63 - 1) / 10^9`; a longer one raises `OverflowError`. */
  const MaxSleepSeconds: nat := 9223372036

  /** The back-off before the retry: `Retry-After` seconds, 60 when the
      header is absent. `int()` rejects a non-integer, `time.sleep` a
      negative or too long value, and either raises. */
  function RetryDelay(header: Option<RetryAfter>): (r: Result<nat, Fault>)
    ensures header.None? ==> r == Ok(60)
    ensures header.Some? && header.value.Seconds? && 0 <= header.value.n <= MaxSleepSeconds ==> r == Ok(header.value.n)
    ensures r.Err? <==>
              header.Some? && (header.value.NotAnInteger? || header.value.n < 0 || header.value.n > MaxSleepSeconds)
  {
    match header
    case None => Ok(60)
    case Some(NotAnInteger) => Err(BadRetryAfter)
    case Some(Seconds(n)) => if n < 0 || n > MaxSleepSeconds then Err(BadRetryAfter) else Ok(n)
  }

  /** One run of `ExtractImages`: the links, how many requests were made and
      the back-off chosen before the retry, if there was one. */
  datatype Extraction = Extraction(links: seq<string>, requests: nat, backoff: Option<nat>)

  /** The links of the response actually used, or the exception it raises. */
  function LinksOf(got: ArticleGet, blacklist: seq<string>): (r: Result<seq<string>, Fault>)
    ensures r.Err? <==> got.OtherRequestError? || (got.Got? && got.response.mainContent.None?)
    ensures got.TooManyRedirects? ==> r == Ok([])
    ensures r.Ok? && got.Got? ==> r.value == Candidates(got.response.mainContent.value, blacklist)
  {
    match got
    case TooManyRedirects => Ok([])
    case OtherRequestError => Err(ArticleRequestFailed)
    case Got(response) =>
      match response.mainContent
      case None => Err(NoMainContent)
      case Some(nodes) => Ok(Candidates(nodes, blacklist))
  }

  /** `ExtractImages`. `get(url, attempt)` answers the first (0) and the
      retried (1) request. */
  function ExtractImages(url: string, get: (string, nat) -> ArticleGet, blacklist: seq<string>): (r: Result<Extraction, Fault>)
    ensures r.Ok? ==> 1 <= r.value.requests <= 2
    ensures r.Ok? ==> (r.value.requests == 2 <==> get(url, 0).Got? && get(url, 0).response.status == 429)
    ensures r.Ok? ==> (r.value.backoff.Some? <==> r.value.requests == 2)
    ensures r.Ok? && r.value.requests == 2 ==> Ok(r.value.backoff.value) == RetryDelay(get(url, 0).response.retryAfter)
    ensures r.Ok? && r.value.requests == 1 ==> LinksOf(get(url, 0), blacklist) == Ok(r.value.links)
    ensures r.Ok? && r.value.requests == 2 ==> LinksOf(get(url, 1), blacklist) == Ok(r.value.links)
    ensures r.Ok? ==> forall l :: l in r.value.links ==> !Blacklisted(l, blacklist)
    ensures r.Err? <==>
              if get(url, 0).Got? && get(url, 0).response.status == 429
              then RetryDelay(get(url, 0).response.retryAfter).Err? || LinksOf(get(url, 1), blacklist).Err?
              else LinksOf(get(url, 0), blacklist).Err?
  {
    var first := get(url, 0);
    if first.Got? && first.response.status == 429 then
      var wait :- RetryDelay(first.response.retryAfter);
      var links :- LinksOf(get(url, 1), blacklist);
      Ok(Extraction(links, 2, Some(wait)))
    else
      var links :- LinksOf(first, blacklist);
      Ok(Extraction(links, 1, None))
  }

  /** One row of a listing page: the raw texts of its date and title divs. */
  datatype LegacyRow = LegacyRow(date: Option<string>, title: Option<Listing.TitleCell>)

  /** An entry of `data`: the split title, and `Images` when the row had a
      title link. */
  datatype Article = Article(title: string, images: Option<seq<string>>)

  /** The title filter of the row loop: `Cosplay` (this exact case) and
      `帥哥` exclude a row. */
  predicate Excluded(title: string) {
    Contains(title, "Cosplay") || Contains(title, "帥哥")
  }

  /** What the row loop of `Main` makes of one row. */
  function VisitRow(row: LegacyRow, key: string, get: (string, nat) -> ArticleGet, blacklist: seq<string>): (r: Result<Option<Article>, Fault>)
    ensures row.date.None? ==> r == Err(NoDateDiv)
    ensures row.date.Some? && Trim(row.date.value) != key ==> r == Ok(None)
    ensures r.Ok? && r.value.Some? ==>
              && row.date.Some? && Trim(row.date.value) == key
              && row.title.Some? && !Excluded(Trim(row.title.value.text))
              && SplitTitle(Trim(row.title.value.text)) == Some(r.value.value.title)
    ensures r.Ok? && r.value.Some? && r.value.value.images.Some? ==>
              forall l :: l in r.value.value.images.value ==> !Blacklisted(l, blacklist)
  {
    if row.date.None? then Err(NoDateDiv)
    else if Trim(row.date.value) != key then Ok(None)
    else if row.title.None? then Err(NoTitleDiv)
    else
      var title := Trim(row.title.value.text);
      if Excluded(title) then Ok(None)
      else
        match SplitTitle(title)
        case None => Ok(None)
        case Some(t) =>
          match row.title.value.link
          case None => Ok(Some(Article(t, None)))
          case Some(link) =>
            match link.href
            case None => Err(TitleHrefMissing)
            case Some(href) =>
              var x :- ExtractImages(PttBaseUrl + href, get, blacklist);
              Ok(Some(Article(t, Some(x.links))))
  }

  /** The converse of `VisitRow`'s contract: a row on the key date with a
      title div raises, is skipped, or is kept, exactly as the row loop
      decides; a kept row's images are the extraction's links. */
  lemma VisitRowDecides(row: LegacyRow, key: string, get: (string, nat) -> ArticleGet, blacklist: seq<string>)
    requires row.date.Some? && Trim(row.date.value) == key
    ensures row.title.None? ==> VisitRow(row, key, get, blacklist) == Err(NoTitleDiv)
    ensures row.title.Some? ==>
              var r := VisitRow(row, key, get, blacklist);
              var title := Trim(row.title.value.text);
              var link := row.title.value.link;
              && (Excluded(title) || SplitTitle(title).None? ==> r == Ok(None))
              && (!Excluded(title) && SplitTitle(title).Some? ==>
                    && (link.None? ==> r == Ok(Some(Article(SplitTitle(title).value, None))))
                    && (link.Some? && link.value.href.None? ==> r == Err(TitleHrefMissing))
                    && (link.Some? && link.value.href.Some? ==>
                          var x := ExtractImages(PttBaseUrl + link.value.href.value, get, blacklist);
                          && (x.Ok? ==> r == Ok(Some(Article(SplitTitle(title).value, Some(x.value.links)))))
                          && (x.Err? ==> r == Err(x.error))))
  {
  }

  /** All links of the articles whose images passed the blacklist. */
  predicate CleanArticles(articles: seq<Article>, blacklist: seq<string>) {
    forall a, l :: a in articles && a.images.Some? && l in a.images.value ==> !Blacklisted(l, blacklist)
  }

  /** The row loop over one page, in row order; the first exception ends it. */
  function VisitRows(rows: seq<LegacyRow>, key: string, get: (string, nat) -> ArticleGet, blacklist: seq<string>): (r: Result<seq<Article>, Fault>)
    ensures r.Ok? ==> |r.value| <= |rows| && CleanArticles(r.value, blacklist)
  {
    if |rows| == 0 then Ok([])
    else
      match VisitRow(rows[0], key, get, blacklist)
      case Err(e) => Err(e)
      case Ok(kept) =>
        var rest :- VisitRows(rows[1..], key, get, blacklist);
        Ok(if kept.Some? then [kept.value] + rest else rest)
  }

  /** A page's row loop that raised did so on some row, every row before it
      passing: the error is that of the first row that raises. */
  lemma {:induction false} VisitRowsRaisesAt(rows: seq<LegacyRow>, key: string, get: (string, nat) -> ArticleGet,
                                             blacklist: seq<string>) returns (i: nat)
    requires VisitRows(rows, key, get, blacklist).Err?
    ensures i < |rows| && VisitRow(rows[i], key, get, blacklist) == Err(VisitRows(rows, key, get, blacklist).error)
    ensures forall j :: 0 <= j < i ==> VisitRow(rows[j], key, get, blacklist).Ok?
    decreases |rows|
  {
    if VisitRow(rows[0], key, get, blacklist).Err? {
      i := 0;
    } else {
      var k := VisitRowsRaisesAt(rows[1..], key, get, blacklist);
      i := k + 1;
      assert rows[1..][k] == rows[i];
      forall j | 0 <= j < i
        ensures VisitRow(rows[j], key, get, blacklist).Ok?
      {
        if j > 0 {
          assert rows[1..][j - 1] == rows[j];
        }
      }
    }
  }

  /** The row loop raises exactly when its first row raises or the rest of
      the loop does. */
  lemma VisitRowsRaisesStep(rows: seq<LegacyRow>, key: string, get: (string, nat) -> ArticleGet, blacklist: seq<string>)
    requires |rows| > 0
    ensures VisitRows(rows, key, get, blacklist).Err?
            <==> VisitRow(rows[0], key, get, blacklist).Err? || VisitRows(rows[1..], key, get, blacklist).Err?
  {
  }

  /** Conversely, a row that raises makes the page's row loop raise. */
  lemma {:induction false} VisitRowsRaisesFrom(rows: seq<LegacyRow>, key: string, get: (string, nat) -> ArticleGet,
                                               blacklist: seq<string>, i: nat)
    requires i < |rows| && VisitRow(rows[i], key, get, blacklist).Err?
    ensures VisitRows(rows, key, get, blacklist).Err?
    decreases |rows|
  {
    VisitRowsRaisesStep(rows, key, get, blacklist);
    if i > 0 {
      assert rows[1..][i - 1] == rows[i];
      VisitRowsRaisesFrom(rows[1..], key, get, blacklist, i - 1);
    }
  }

  /** The first step of a page's row loop that did not raise. */
  lemma VisitRowsShape(rows: seq<LegacyRow>, key: string, get: (string, nat) -> ArticleGet, blacklist: seq<string>)
    requires |rows| > 0 && VisitRows(rows, key, get, blacklist).Ok?
    ensures var first := VisitRow(rows[0], key, get, blacklist);
      var rest := VisitRows(rows[1..], key, get, blacklist);
      && first.Ok? && rest.Ok?
      && VisitRows(rows, key, get, blacklist).value == (if first.value.Some? then [first.value.value] else []) + rest.value
  {
  }

  /** A row the loop keeps puts its article on the page's list. */
  lemma {:induction false} VisitRowsKeepsRow(rows: seq<LegacyRow>, key: string, get: (string, nat) -> ArticleGet,
                                             blacklist: seq<string>, i: nat, a: Article)
    requires VisitRows(rows, key, get, blacklist).Ok?
    requires i < |rows| && VisitRow(rows[i], key, get, blacklist) == Ok(Some(a))
    ensures a in VisitRows(rows, key, get, blacklist).value
  {
    VisitRowsShape(rows, key, get, blacklist);
    if i > 0 {
      assert rows[1..][i - 1] == rows[i];
      VisitRowsKeepsRow(rows[1..], key, get, blacklist, i - 1, a);
    }
  }

  /** Every article on the page's list comes from a row the loop kept. */
  lemma {:induction false} VisitRowsKeptRow(rows: seq<LegacyRow>, key: string, get: (string, nat) -> ArticleGet,
                                            blacklist: seq<string>, a: Article) returns (i: nat)
    requires VisitRows(rows, key, get, blacklist).Ok?
    requires a in VisitRows(rows, key, get, blacklist).value
    ensures i < |rows| && VisitRow(rows[i], key, get, blacklist) == Ok(Some(a))
  {
    VisitRowsShape(rows, key, get, blacklist);
    var first := VisitRow(rows[0], key, get, blacklist).value;
    if first == Some(a) {
      i := 0;
    } else {
      var j := VisitRowsKeptRow(rows[1..], key, get, blacklist, a);
      assert rows[1..][j] == rows[j + 1];
      i := j + 1;
    }
  }

  /** A page's kept articles are exactly those its rows keep. */
  lemma VisitRowsMembers(rows: seq<LegacyRow>, key: string, get: (string, nat) -> ArticleGet,
                         blacklist: seq<string>, a: Article)
    requires VisitRows(rows, key, get, blacklist).Ok?
    ensures a in VisitRows(rows, key, get, blacklist).value <==>
              exists i :: 0 <= i < |rows| && VisitRow(rows[i], key, get, blacklist) == Ok(Some(a))
  {
    if a in VisitRows(rows, key, get, blacklist).value {
      var i := VisitRowsKeptRow(rows, key, get, blacklist, a);
    }
    if exists i :: 0 <= i < |rows| && VisitRow(rows[i], key, get, blacklist) == Ok(Some(a)) {
      var i :| 0 <= i < |rows| && VisitRow(rows[i], key, get, blacklist) == Ok(Some(a));
      VisitRowsKeepsRow(rows, key, get, blacklist, i, a);
    }
  }

  /** A row without a date div anywhere on the page makes the page fail:
      `date_div.text` raises before later rows are looked at, and earlier
      rows cannot hide it. */
  lemma {:induction false} VisitRowsNeedsDates(rows: seq<LegacyRow>, key: string, get: (string, nat) -> ArticleGet,
                                               blacklist: seq<string>, i: nat)
    requires i < |rows| && rows[i].date.None?
    ensures VisitRows(rows, key, get, blacklist).Err?
  {
    if i == 0 {
      assert VisitRow(rows[0], key, get, blacklist) == Err(NoDateDiv);
    } else {
      assert rows[1..][i - 1] == rows[i];
      VisitRowsNeedsDates(rows[1..], key, get, blacklist, i - 1);
    }
  }

  /** A listing page as `Main` reads it. */
  datatype LegacyPage = LegacyPage(rows: seq<LegacyRow>, nav: seq<Listing.NavLink>)

  /** `session.get` on a listing page: no status check, any exception escapes. */
  datatype ListingGet = ListingGot(page: LegacyPage) | ListingFailed

  /** The pages fetched and the articles kept, in order. */
  datatype Trace = Trace(articles: seq<Article>, visited: seq<string>)

  /** `if not next_page: break`: a missing link or an empty `href` ends the walk. */
  predicate HasNext(next: Option<string>) {
    next.Some? && next.value != ""
  }

  /** The `while page_count < max_page` loop of `Main` from the page at `path`
      with `budget` iterations left. */
  function CrawlFrom(getListing: string -> ListingGet, get: (string, nat) -> ArticleGet,
                     path: string, budget: nat, key: string, blacklist: seq<string>): (r: Result<Trace, Fault>)
    ensures r.Ok? ==> |r.value.visited| <= budget
    ensures r.Ok? ==> CleanArticles(r.value.articles, blacklist)
    ensures r.Ok? && budget > 0 ==> |r.value.visited| > 0 && r.value.visited[0] == PttBaseUrl + path
    // the articles are those the fetched pages keep, in page order: no kept row is lost
    ensures r.Ok? ==> LegacyArticles(getListing, get, r.value.visited, key, blacklist) == Ok(r.value.articles)
    decreases budget
  {
    if budget == 0 then Ok(Trace([], []))
    else
      var url := PttBaseUrl + path;
      match getListing(url)
      case ListingFailed => Err(ListingRequestFailed)
      case ListingGot(page) =>
        var articles :- VisitRows(page.rows, key, get, blacklist);
        var next :- FindNextPage(page.nav);
        if !HasNext(next) then
          assert LegacyArticles(getListing, get, [], key, blacklist) == Ok([]);
          assert [url] + [] == [url] && articles + [] == articles;
          LegacyArticlesCons(getListing, get, url, articles, [], [], [url], articles, key, blacklist);
          Ok(Trace(articles, [url]))
        else
          var rest :- CrawlFrom(getListing, get, next.value, budget - 1, key, blacklist);
          LegacyArticlesCons(getListing, get, url, articles, rest.visited, rest.articles,
                             [url] + rest.visited, articles + rest.articles, key, blacklist);
          Ok(Trace(articles + rest.articles, [url] + rest.visited))
  }

  /** The articles the pages at `urls` keep, concatenated in page order; a
      failed request or a failing row raises. */
  function LegacyArticles(getListing: string -> ListingGet, get: (string, nat) -> ArticleGet,
                          urls: seq<string>, key: string, blacklist: seq<string>): Result<seq<Article>, Fault>
  {
    if |urls| == 0 then Ok([])
    else
      match getListing(urls[0])
      case ListingFailed => Err(ListingRequestFailed)
      case ListingGot(page) =>
        var first :- VisitRows(page.rows, key, get, blacklist);
        var rest :- LegacyArticles(getListing, get, urls[1..], key, blacklist);
        Ok(first + rest)
  }

  /** The articles of a non-empty list of pages: the first page's, then the
      rest's. */
  lemma LegacyArticlesShape(getListing: string -> ListingGet, get: (string, nat) -> ArticleGet,
                            urls: seq<string>, key: string, blacklist: seq<string>)
    requires |urls| > 0 && LegacyArticles(getListing, get, urls, key, blacklist).Ok?
    ensures && getListing(urls[0]).ListingGot?
            && var here := VisitRows(getListing(urls[0]).page.rows, key, get, blacklist);
            && var rest := LegacyArticles(getListing, get, urls[1..], key, blacklist);
            && here.Ok? && rest.Ok?
            && LegacyArticles(getListing, get, urls, key, blacklist).value == here.value + rest.value
  {
  }

  /** Putting a page that passes its row loop in front of a list of pages
      puts its articles in front. */
  lemma LegacyArticlesCons(getListing: string -> ListingGet, get: (string, nat) -> ArticleGet,
                           url: string, here: seq<Article>, urls: seq<string>, later: seq<Article>,
                           visited: seq<string>, articles: seq<Article>, key: string, blacklist: seq<string>)
    requires getListing(url).ListingGot? && VisitRows(getListing(url).page.rows, key, get, blacklist) == Ok(here)
    requires LegacyArticles(getListing, get, urls, key, blacklist) == Ok(later)
    requires visited == [url] + urls && articles == here + later
    ensures LegacyArticles(getListing, get, visited, key, blacklist) == Ok(articles)
  {
    assert visited[0] == url;
    assert visited[1..] == urls;
  }

  /** Each page of a list whose articles were all collected passed its row
      loop. */
  lemma {:induction false} LegacyArticlesVisitsOk(getListing: string -> ListingGet, get: (string, nat) -> ArticleGet,
                                                  urls: seq<string>, key: string, blacklist: seq<string>, k: nat)
    requires LegacyArticles(getListing, get, urls, key, blacklist).Ok?
    requires k < |urls|
    ensures getListing(urls[k]).ListingGot? && VisitRows(getListing(urls[k]).page.rows, key, get, blacklist).Ok?
    decreases |urls|
  {
    LegacyArticlesShape(getListing, get, urls, key, blacklist);
    if k > 0 {
      assert urls[1..][k - 1] == urls[k];
      LegacyArticlesVisitsOk(getListing, get, urls[1..], key, blacklist, k - 1);
    }
  }

  /** Every article a fetched page keeps is among the pages' articles. */
  lemma {:induction false} LegacyArticlesKeep(getListing: string -> ListingGet, get: (string, nat) -> ArticleGet,
                                              urls: seq<string>, key: string, blacklist: seq<string>,
                                              k: nat, a: Article)
    requires LegacyArticles(getListing, get, urls, key, blacklist).Ok?
    requires k < |urls| && getListing(urls[k]).ListingGot?
    requires VisitRows(getListing(urls[k]).page.rows, key, get, blacklist).Ok?
    requires a in VisitRows(getListing(urls[k]).page.rows, key, get, blacklist).value
    ensures a in LegacyArticles(getListing, get, urls, key, blacklist).value
    decreases |urls|
  {
    LegacyArticlesShape(getListing, get, urls, key, blacklist);
    if k > 0 {
      assert urls[1..][k - 1] == urls[k];
      LegacyArticlesKeep(getListing, get, urls[1..], key, blacklist, k - 1, a);
    }
  }

  /** The walk moved from `url` to `next` only through the page's
      previous-page link. */
  predicate Continues(getListing: string -> ListingGet, url: string, next: string) {
    && getListing(url).ListingGot?
    && var found := FindNextPage(getListing(url).page.nav);
       found.Ok? && HasNext(found.value) && next == PttBaseUrl + found.value.value
  }

  /** The shape of a walk that did not fail on its first page. */
  lemma CrawlShape(getListing: string -> ListingGet, get: (string, nat) -> ArticleGet,
                   path: string, budget: nat, key: string, blacklist: seq<string>)
    requires budget > 0 && CrawlFrom(getListing, get, path, budget, key, blacklist).Ok?
    ensures var url := PttBaseUrl + path;
      var t := CrawlFrom(getListing, get, path, budget, key, blacklist).value;
      && getListing(url).ListingGot?
      && var found := FindNextPage(getListing(url).page.nav);
      && found.Ok?
      && (!HasNext(found.value) ==> t.visited == [url])
      && (HasNext(found.value) ==>
            var rest := CrawlFrom(getListing, get, found.value.value, budget - 1, key, blacklist);
            rest.Ok? && t.visited == [url] + rest.value.visited)
  {
  }

  /** Every page of `visited` but the last was left for the next one
      through its previous-page link. */
  predicate Linked(getListing: string -> ListingGet, visited: seq<string>)
    decreases |visited|
  {
    |visited| <= 1 || (Continues(getListing, visited[0], visited[1]) && Linked(getListing, visited[1..]))
  }

  lemma {:induction false} LinkedEveryHop(getListing: string -> ListingGet, visited: seq<string>)
    requires Linked(getListing, visited)
    ensures forall k :: 0 <= k < |visited| - 1 ==> Continues(getListing, visited[k], visited[k + 1])
    decreases |visited|
  {
    if |visited| > 1 {
      LinkedEveryHop(getListing, visited[1..]);
      assert forall k :: 0 < k < |visited| - 1 ==> visited[1..][k - 1] == visited[k] && visited[1..][k] == visited[k + 1];
    }
  }

  /** The first hop of a walk that went on: the next page fetched is the
      first page's previous-page link. */
  lemma CrawlFirstHop(getListing: string -> ListingGet, get: (string, nat) -> ArticleGet,
                      path: string, budget: nat, key: string, blacklist: seq<string>)
    requires budget > 1 && CrawlFrom(getListing, get, path, budget, key, blacklist).Ok?
    ensures var t := CrawlFrom(getListing, get, path, budget, key, blacklist).value;
      |t.visited| > 1 ==> Continues(getListing, t.visited[0], t.visited[1])
  {
    CrawlShape(getListing, get, path, budget, key, blacklist);
  }

  /** Each page but the last was left through its previous-page link. */
  lemma {:induction false} CrawlFollowsPrevLinks(getListing: string -> ListingGet, get: (string, nat) -> ArticleGet,
                                                 path: string, budget: nat, key: string, blacklist: seq<string>)
    requires CrawlFrom(getListing, get, path, budget, key, blacklist).Ok?
    ensures Linked(getListing, CrawlFrom(getListing, get, path, budget, key, blacklist).value.visited)
    decreases budget
  {
    if budget > 1 {
      var url := PttBaseUrl + path;
      CrawlShape(getListing, get, path, budget, key, blacklist);
      var next := FindNextPage(getListing(url).page.nav).value;
      if HasNext(next) {
        var rest := CrawlFrom(getListing, get, next.value, budget - 1, key, blacklist).value;
        CrawlFollowsPrevLinks(getListing, get, next.value, budget - 1, key, blacklist);
        CrawlFirstHop(getListing, get, path, budget, key, blacklist);
        assert ([url] + rest.visited)[1..] == rest.visited;
      }
    }
  }

  /** A walk that ended before its page limit ended on a page whose
      previous-page link was missing or empty. */
  lemma {:induction false} CrawlEndsWithoutLink(getListing: string -> ListingGet, get: (string, nat) -> ArticleGet,
                                                path: string, budget: nat, key: string, blacklist: seq<string>)
    requires CrawlFrom(getListing, get, path, budget, key, blacklist).Ok?
    ensures var t := CrawlFrom(getListing, get, path, budget, key, blacklist).value;
      0 < |t.visited| < budget ==>
        var last := getListing(t.visited[|t.visited| - 1]);
        last.ListingGot? && FindNextPage(last.page.nav).Ok? && !HasNext(FindNextPage(last.page.nav).value)
    decreases budget
  {
    if budget > 1 {
      var url := PttBaseUrl + path;
      CrawlShape(getListing, get, path, budget, key, blacklist);
      var next := FindNextPage(getListing(url).page.nav).value;
      if HasNext(next) {
        var rest := CrawlFrom(getListing, get, next.value, budget - 1, key, blacklist).value;
        CrawlEndsWithoutLink(getListing, get, next.value, budget - 1, key, blacklist);
        assert |rest.visited| > 0;
        var visited := [url] + rest.visited;
        assert visited[|visited| - 1] == rest.visited[|rest.visited| - 1];
      }
    }
  }

  /** Where a page raises in `Main`'s loop. */
  datatype Raise = RequestRaised | RowRaised | NavRaised

  /** The page at `url` raises in `Main`'s loop at the point `why` names: its
      request failed, one of its rows raised, or its navigation bar has no
      `‹ 上頁` button. */
  predicate PageRaises(getListing: string -> ListingGet, get: (string, nat) -> ArticleGet,
                       url: string, key: string, blacklist: seq<string>, why: Raise)
  {
    match why
    case RequestRaised => getListing(url).ListingFailed?
    case RowRaised => getListing(url).ListingGot? && VisitRows(getListing(url).page.rows, key, get, blacklist).Err?
    case NavRaised => getListing(url).ListingGot? && FindNextPage(getListing(url).page.nav).Err?
  }

  /** `visited` leads from the page at `path`, through previous-page links
      and within `budget` pages, to a page that raises at `why`. */
  predicate CrawlFailureChain(getListing: string -> ListingGet, get: (string, nat) -> ArticleGet,
                              path: string, budget: nat, visited: seq<string>, why: Raise,
                              key: string, blacklist: seq<string>)
  {
    && 0 < |visited| <= budget && visited[0] == PttBaseUrl + path
    && Linked(getListing, visited)
    && PageRaises(getListing, get, visited[|visited| - 1], key, blacklist, why)
  }

  /** What `Main`'s loop does with the page at `url`: raise, stop there, or
      go on to the page behind its `‹ 上頁` button. */
  datatype LoopStep = Raised(why: Raise) | Stopped | Moved(next: string)

  /** One iteration of `Main`'s loop on the page at `url`; the rows are
      visited before the navigation bar is searched. */
  function StepAt(getListing: string -> ListingGet, get: (string, nat) -> ArticleGet,
                  url: string, key: string, blacklist: seq<string>): (s: LoopStep)
    ensures s.Raised? ==> PageRaises(getListing, get, url, key, blacklist, s.why)
    ensures !s.Raised? ==>
      && getListing(url).ListingGot?
      && VisitRows(getListing(url).page.rows, key, get, blacklist).Ok?
      && FindNextPage(getListing(url).page.nav).Ok?
    ensures s.Stopped? ==> !HasNext(FindNextPage(getListing(url).page.nav).value)
    ensures s.Moved? ==> Continues(getListing, url, PttBaseUrl + s.next)
  {
    match getListing(url)
    case ListingFailed => Raised(RequestRaised)
    case ListingGot(page) =>
      if VisitRows(page.rows, key, get, blacklist).Err? then Raised(RowRaised)
      else
        match FindNextPage(page.nav)
        case Err(_) => Raised(NavRaised)
        case Ok(next) => if HasNext(next) then Moved(next.value) else Stopped
  }

  /** A page that raises at any point makes its iteration raise. */
  lemma StepAtRaises(getListing: string -> ListingGet, get: (string, nat) -> ArticleGet,
                     url: string, why: Raise, key: string, blacklist: seq<string>)
    requires PageRaises(getListing, get, url, key, blacklist, why)
    ensures StepAt(getListing, get, url, key, blacklist).Raised?
  {
  }

  /** An independent statement of when `Main`'s loop raises, started on the
      page at `path` with `budget` iterations left. */
  predicate LoopRaises(getListing: string -> ListingGet, get: (string, nat) -> ArticleGet,
                       path: string, budget: nat, key: string, blacklist: seq<string>)
    decreases budget
  {
    && budget > 0
    && var s := StepAt(getListing, get, PttBaseUrl + path, key, blacklist);
       s.Raised? || (s.Moved? && LoopRaises(getListing, get, s.next, budget - 1, key, blacklist))
  }

  /** The walk fails on its first iteration, or exactly when the walk from
      the previous page does. */
  lemma CrawlFailsStep(getListing: string -> ListingGet, get: (string, nat) -> ArticleGet,
                       path: string, budget: nat, key: string, blacklist: seq<string>)
    requires budget > 0
    ensures var s := StepAt(getListing, get, PttBaseUrl + path, key, blacklist);
      (CrawlFrom(getListing, get, path, budget, key, blacklist).Err? <==>
         s.Raised? || (s.Moved? && CrawlFrom(getListing, get, s.next, budget - 1, key, blacklist).Err?))
  {
  }

  /** `CrawlFrom` fails exactly when `LoopRaises` says it does. */
  lemma {:induction false} CrawlFailsExactly(getListing: string -> ListingGet, get: (string, nat) -> ArticleGet,
                                             path: string, budget: nat, key: string, blacklist: seq<string>)
    ensures CrawlFrom(getListing, get, path, budget, key, blacklist).Err?
            <==> LoopRaises(getListing, get, path, budget, key, blacklist)
    decreases budget
  {
    if budget > 0 {
      var s := StepAt(getListing, get, PttBaseUrl + path, key, blacklist);
      CrawlFailsStep(getListing, get, path, budget, key, blacklist);
      if s.Moved? {
        CrawlFailsExactly(getListing, get, s.next, budget - 1, key, blacklist);
      }
    }
  }

  /** A first page that raises is a failure chain on its own. */
  lemma CrawlFailureChainOne(getListing: string -> ListingGet, get: (string, nat) -> ArticleGet,
                             path: string, budget: nat, why: Raise, key: string, blacklist: seq<string>)
    requires budget > 0 && PageRaises(getListing, get, PttBaseUrl + path, key, blacklist, why)
    ensures CrawlFailureChain(getListing, get, path, budget, [PttBaseUrl + path], why, key, blacklist)
  {
  }

  /** A page that links on to a failure chain starts a longer one. */
  lemma CrawlFailureChainCons(getListing: string -> ListingGet, get: (string, nat) -> ArticleGet,
                              path: string, budget: nat, next: string, rest: seq<string>, visited: seq<string>,
                              why: Raise, key: string, blacklist: seq<string>)
    requires budget > 0 && Continues(getListing, PttBaseUrl + path, PttBaseUrl + next)
    requires CrawlFailureChain(getListing, get, next, budget - 1, rest, why, key, blacklist)
    requires visited == [PttBaseUrl + path] + rest
    ensures CrawlFailureChain(getListing, get, path, budget, visited, why, key, blacklist)
  {
    assert visited[1..] == rest;
    assert visited[|visited| - 1] == rest[|rest| - 1];
  }

  /** The rest of a failure chain of more than one page. */
  lemma CrawlFailureChainTail(getListing: string -> ListingGet, get: (string, nat) -> ArticleGet,
                              path: string, budget: nat, visited: seq<string>, why: Raise,
                              key: string, blacklist: seq<string>)
    requires CrawlFailureChain(getListing, get, path, budget, visited, why, key, blacklist)
    requires |visited| > 1 && StepAt(getListing, get, PttBaseUrl + path, key, blacklist).Moved?
    ensures CrawlFailureChain(getListing, get, StepAt(getListing, get, PttBaseUrl + path, key, blacklist).next,
                              budget - 1, visited[1..], why, key, blacklist)
  {
    var rest := visited[1..];
    assert Continues(getListing, visited[0], visited[1]);
    assert rest[|rest| - 1] == visited[|visited| - 1];
  }

  /** A raising loop reached, through previous-page links and within its
      iterations, a page that raises. */
  lemma {:induction false} LoopRaisesAt(getListing: string -> ListingGet, get: (string, nat) -> ArticleGet,
                                        path: string, budget: nat, key: string, blacklist: seq<string>)
    returns (visited: seq<string>, why: Raise)
    requires LoopRaises(getListing, get, path, budget, key, blacklist)
    ensures CrawlFailureChain(getListing, get, path, budget, visited, why, key, blacklist)
    decreases budget
  {
    var s := StepAt(getListing, get, PttBaseUrl + path, key, blacklist);
    if s.Raised? {
      visited, why := [PttBaseUrl + path], s.why;
      CrawlFailureChainOne(getListing, get, path, budget, why, key, blacklist);
    } else {
      var rest;
      rest, why := LoopRaisesAt(getListing, get, s.next, budget - 1, key, blacklist);
      visited := [PttBaseUrl + path] + rest;
      CrawlFailureChainCons(getListing, get, path, budget, s.next, rest, visited, why, key, blacklist);
    }
  }

  /** Conversely, the loop raises along any failure chain. */
  lemma {:induction false} LoopRaisesFrom(getListing: string -> ListingGet, get: (string, nat) -> ArticleGet,
                                          path: string, budget: nat, visited: seq<string>, why: Raise,
                                          key: string, blacklist: seq<string>)
    requires CrawlFailureChain(getListing, get, path, budget, visited, why, key, blacklist)
    ensures LoopRaises(getListing, get, path, budget, key, blacklist)
    decreases budget
  {
    var s := StepAt(getListing, get, PttBaseUrl + path, key, blacklist);
    if |visited| == 1 {
      StepAtRaises(getListing, get, PttBaseUrl + path, why, key, blacklist);
    } else if s.Moved? {
      CrawlFailureChainTail(getListing, get, path, budget, visited, why, key, blacklist);
      LoopRaisesFrom(getListing, get, s.next, budget - 1, visited[1..], why, key, blacklist);
    }
  }

  /** A failed walk reached, through previous-page links and within its
      page limit, a page that raises. */
  lemma CrawlFailsAt(getListing: string -> ListingGet, get: (string, nat) -> ArticleGet,
                     path: string, budget: nat, key: string, blacklist: seq<string>)
    returns (visited: seq<string>, why: Raise)
    requires CrawlFrom(getListing, get, path, budget, key, blacklist).Err?
    ensures CrawlFailureChain(getListing, get, path, budget, visited, why, key, blacklist)
  {
    CrawlFailsExactly(getListing, get, path, budget, key, blacklist);
    visited, why := LoopRaisesAt(getListing, get, path, budget, key, blacklist);
  }

  /** Conversely, a walk with a failure chain fails. */
  lemma CrawlFailsFrom(getListing: string -> ListingGet, get: (string, nat) -> ArticleGet,
                       path: string, budget: nat, visited: seq<string>, why: Raise,
                       key: string, blacklist: seq<string>)
    requires CrawlFailureChain(getListing, get, path, budget, visited, why, key, blacklist)
    ensures CrawlFrom(getListing, get, path, budget, key, blacklist).Err?
  {
    LoopRaisesFrom(getListing, get, path, budget, visited, why, key, blacklist);
    CrawlFailsExactly(getListing, get, path, budget, key, blacklist);
  }

  /** `for article in data: if "Images" in article: image_urls.extend(...)`. */
  function CollectImages(articles: seq<Article>): (r: seq<string>)
    ensures forall l :: l in r <==> exists a :: a in articles && a.images.Some? && l in a.images.value
  {
    if |articles| == 0 then []
    else
      var a := articles[|articles| - 1];
      var prefix := articles[..|articles| - 1];
      var r := CollectImages(prefix) + (if a.images.Some? then a.images.value else []);
      assert articles == prefix + [a];
      assert forall b :: b in articles <==> b in prefix || b == a;
      r
  }

  /** Collecting distributes over concatenation: the result lists each
      article's images in article order. */
  lemma {:induction false} CollectImagesAppend(a: seq<Article>, b: seq<Article>)
    ensures CollectImages(a + b) == CollectImages(a) + CollectImages(b)
    ensures |b| == 1 ==> CollectImages(b) == if b[0].images.Some? then b[0].images.value else []
    decreases |b|
  {
    if |b| == 0 {
      assert a + b == a;
    } else {
      var init, last := b[..|b| - 1], b[|b| - 1];
      var tail := if last.images.Some? then last.images.value else [];
      assert b == init + [last];
      assert a + b == (a + init) + [last];
      calc {
        CollectImages(a + b);
        { CollectImagesSnoc(a + init, last); }
        CollectImages(a + init) + tail;
        { CollectImagesAppend(a, init); }
        (CollectImages(a) + CollectImages(init)) + tail;
        CollectImages(a) + (CollectImages(init) + tail);
        { CollectImagesSnoc(init, last); }
        CollectImages(a) + CollectImages(b);
      }
      if |b| == 1 {
        CollectImagesOne(last);
      }
    }
  }

  /** An article appended at the end contributes its images at the end. */
  lemma CollectImagesSnoc(a: seq<Article>, x: Article)
    ensures CollectImages(a + [x]) == CollectImages(a) + (if x.images.Some? then x.images.value else [])
  {
    assert (a + [x])[..|a + [x]| - 1] == a;
  }

  /** One article contributes its own images, or nothing when it has none. */
  lemma CollectImagesOne(a: Article)
    ensures CollectImages([a]) == if a.images.Some? then a.images.value else []
  {
    assert [a][..0] == [];
  }

  /** The page limit `Main` hard-codes. */
  const LegacyMaxPage: nat := 8

  /** `Main`. `target` is the day `get_yesterday_date()` returns. */
  function Main(getListing: string -> ListingGet, get: (string, nat) -> ArticleGet, target: Date): (r: Result<seq<string>, Fault>)
    requires Valid(target)
    ensures r.Ok? ==> forall l :: l in r.value ==> !Blacklisted(l, ImageBlacklist)
    ensures var crawl := CrawlFrom(getListing, get, BoardIndexPath, LegacyMaxPage, DateKey(target.month, target.day), ImageBlacklist);
      && (r.Ok? <==> crawl.Ok?)
      && (r.Ok? ==> r.value == CollectImages(crawl.value.articles))
  {
    var trace :- CrawlFrom(getListing, get, BoardIndexPath, LegacyMaxPage, DateKey(target.month, target.day), ImageBlacklist);
    Ok(CollectImages(trace.articles))
  }

  /** Completeness of `Main`: every image of every article a row of a
      fetched page keeps is returned. */
  lemma MainReturnsKeptImages(getListing: string -> ListingGet, get: (string, nat) -> ArticleGet, target: Date,
                              k: nat, i: nat, a: Article, l: string)
    requires Valid(target) && Main(getListing, get, target).Ok?
    requires var t := CrawlFrom(getListing, get, BoardIndexPath, LegacyMaxPage, DateKey(target.month, target.day), ImageBlacklist);
      && t.Ok? && k < |t.value.visited|
      && getListing(t.value.visited[k]).ListingGot?
      && i < |getListing(t.value.visited[k]).page.rows|
      && VisitRow(getListing(t.value.visited[k]).page.rows[i], DateKey(target.month, target.day), get, ImageBlacklist) == Ok(Some(a))
    requires a.images.Some? && l in a.images.value
    ensures l in Main(getListing, get, target).value
  {
    var key := DateKey(target.month, target.day);
    var t := CrawlFrom(getListing, get, BoardIndexPath, LegacyMaxPage, key, ImageBlacklist).value;
    var rows := getListing(t.visited[k]).page.rows;
    LegacyArticlesVisitsOk(getListing, get, t.visited, key, ImageBlacklist, k);
    VisitRowsKeepsRow(rows, key, get, ImageBlacklist, i, a);
    LegacyArticlesKeep(getListing, get, t.visited, key, ImageBlacklist, k, a);
  }
}

=== FILE: links.dfy ===
/** Image-link extraction from one article page and the imgur liveness
    decision (Scraper.py `fetch_and_extract_links`, `is_imgur_image_valid`;
    the same extraction loop appears in Scrap.py `ExtractImages`). */
module Links {
  import opened Outcomes
  import opened Text

  /** A top-level child of the article's `main-content` div: a text node, an
      `<a>` tag (with or without `href`), or any other tag. */
  datatype Node = Text(s: string) | Anchor(href: Option<string>) | Other

  /** The signature separator: a text node reading `--` once stripped. */
  predicate IsDelimiter(n: Node) {
    n.Text? && Trim(n.s) == "--"
  }

  /** Some blacklist entry is a substring of `href`. */
  predicate Blacklisted(href: string, blacklist: seq<string>) {
    exists b :: b in blacklist && Contains(href, b)
  }

  /** The extraction loop: walk the nodes in order, stop for good at the first
      delimiter, keep the `href` of every anchor that has one unless it is
      blacklisted. */
  function Candidates(nodes: seq<Node>, blacklist: seq<string>): (r: seq<string>)
    ensures forall h :: h in r ==> !Blacklisted(h, blacklist)
    ensures |r| <= |nodes|
  {
    if |nodes| == 0 then []
    else
      var n := nodes[0];
      if IsDelimiter(n) then []
      else if n.Anchor? && n.href.Some? && !Blacklisted(n.href.value, blacklist) then
        [n.href.value] + Candidates(nodes[1..], blacklist)
      else Candidates(nodes[1..], blacklist)
  }

  /** Index of the first delimiter, or `|nodes|` when there is none. */
  function DelimiterIndex(nodes: seq<Node>): (k: nat)
    ensures k <= |nodes|
    ensures forall i :: 0 <= i < k ==> !IsDelimiter(nodes[i])
    ensures k < |nodes| ==> IsDelimiter(nodes[k])
  {
    if |nodes| == 0 || IsDelimiter(nodes[0]) then 0 else 1 + DelimiterIndex(nodes[1..])
  }

  /** Every anchor `href`, in document order. */
  function AnchorHrefs(nodes: seq<Node>): seq<string> {
    if |nodes| == 0 then []
    else if nodes[0].Anchor? && nodes[0].href.Some? then [nodes[0].href.value] + AnchorHrefs(nodes[1..])
    else AnchorHrefs(nodes[1..])
  }

  /** The links that survive the blacklist, in order. */
  function Allowed(hrefs: seq<string>, blacklist: seq<string>): seq<string> {
    if |hrefs| == 0 then []
    else if Blacklisted(hrefs[0], blacklist) then Allowed(hrefs[1..], blacklist)
    else [hrefs[0]] + Allowed(hrefs[1..], blacklist)
  }

  /** The single-pass loop equals the two-stage reading: cut at the first
      delimiter, take all anchor hrefs, drop the blacklisted ones. */
  lemma {:induction false} CandidatesIsCutThenFilter(nodes: seq<Node>, blacklist: seq<string>)
    ensures Candidates(nodes, blacklist) == Allowed(AnchorHrefs(nodes[..DelimiterIndex(nodes)]), blacklist)
  {
    if |nodes| == 0 || IsDelimiter(nodes[0]) {
      assert nodes[..DelimiterIndex(nodes)] == [];
    } else {
      var k := DelimiterIndex(nodes);
      var tail := nodes[1..];
      assert k == 1 + DelimiterIndex(tail);
      CandidatesIsCutThenFilter(tail, blacklist);
      var cut := nodes[..k];
      assert cut[0] == nodes[0];
      assert cut[1..] == tail[..k - 1];
      var n := nodes[0];
      if n.Anchor? && n.href.Some? {
        assert AnchorHrefs(cut) == [n.href.value] + AnchorHrefs(tail[..k - 1]);
      } else {
        assert AnchorHrefs(cut) == AnchorHrefs(tail[..k - 1]);
      }
    }
  }

  /** Nothing after a delimiter can be extracted, whatever follows it. */
  lemma {:induction false} DelimiterEndsExtraction(before: seq<Node>, s: string, after: seq<Node>, blacklist: seq<string>)
    requires Trim(s) == "--"
    ensures Candidates(before + [Text(s)] + after, blacklist) == Candidates(before, blacklist)
  {
    if |before| == 0 {
      assert (before + [Text(s)] + after)[0] == Text(s);
    } else {
      assert (before + [Text(s)] + after)[1..] == before[1..] + [Text(s)] + after;
      DelimiterEndsExtraction(before[1..], s, after, blacklist);
    }
  }

  /** What `requests.head(url, allow_redirects=True, timeout=10)` produced: a
      transport-level exception, or the final response after redirects. */
  datatype HeadOutcome = RequestFailed | Response(status: int, finalUrl: string)

  /** `raise_for_status()` raises for 4xx and 5xx status codes. */
  predicate IsErrorStatus(status: int) {
    400 <= status < 600
  }

  /** The URLs imgur redirects a removed image to. */
  predicate IsRemovedSentinel(url: string) {
    url == "https://imgur.com/" || url == "https://i.imgur.com/" || url == "https://i.imgur.com/removed.png"
  }

  /** `is_imgur_image_valid`, given the outcome of its single HEAD request. */
  function ImgurValid(outcome: HeadOutcome): (live: bool)
    ensures outcome.RequestFailed? ==> !live
    ensures outcome.Response? && IsErrorStatus(outcome.status) ==> !live
    ensures outcome.Response? && IsRemovedSentinel(outcome.finalUrl) ==> !live
    ensures outcome.Response? && !IsErrorStatus(outcome.status) && !IsRemovedSentinel(outcome.finalUrl) ==> live
  {
    match outcome
    case RequestFailed => false
    case Response(status, finalUrl) =>
      if IsErrorStatus(status) then false
      else !IsRemovedSentinel(finalUrl)
  }

  predicate IsImgur(link: string) {
    Contains(link, "imgur.com")
  }

  /** Whether a candidate survives validation: non-imgur links always do,
      imgur links when their HEAD request says the image is live. */
  predicate Keeps(link: string, head: string -> HeadOutcome) {
    !IsImgur(link) || ImgurValid(head(link))
  }

  /** `a` is obtained from `b` by deleting elements. */
  predicate IsSubsequence<T(==)>(a: seq<T>, b: seq<T>) {
    if |a| == 0 then true
    else if |b| == 0 then false
    else if a[0] == b[0] then IsSubsequence(a[1..], b[1..])
    else IsSubsequence(a, b[1..])
  }

  /** The validation loop of `fetch_and_extract_links`: candidates in order,
      imgur ones only when live. `head` answers the HEAD request for a URL. */
  function ValidLinks(candidates: seq<string>, head: string -> HeadOutcome): (r: seq<string>)
    ensures IsSubsequence(r, candidates)
    ensures forall l :: l in r ==> l in candidates && Keeps(l, head)
    ensures forall l :: l in candidates && Keeps(l, head) ==> l in r
  {
    if |candidates| == 0 then []
    else
      var rest := ValidLinks(candidates[1..], head);
      if Keeps(candidates[0], head) then [candidates[0]] + rest
      else
        SkipHead(rest, candidates);
        rest
  }

  /** Skipping the first element of the bigger sequence keeps a subsequence. */
  lemma {:induction false} SkipHead<T>(a: seq<T>, b: seq<T>)
    requires |b| > 0 && IsSubsequence(a, b[1..])
    ensures IsSubsequence(a, b)
    decreases |a| + |b|
  {
    if |a| > 0 && a[0] == b[0] {
      SubsequenceDropFirst(a, b[1..]);
    }
  }

  lemma {:induction false} SubsequenceDropFirst<T>(a: seq<T>, b: seq<T>)
    requires |a| > 0 && IsSubsequence(a, b)
    ensures IsSubsequence(a[1..], b)
    decreases |a| + |b|
  {
    if |b| > 0 {
      if a[0] == b[0] {
        SkipHead(a[1..], b);
      } else {
        SubsequenceDropFirst(a, b[1..]);
        SkipHead(a[1..], b);
      }
    }
  }

  /** Validation keeps each link as many times as it occurs among the
      candidates when it passes, and never otherwise. */
  lemma {:induction false} ValidLinksCounts(candidates: seq<string>, head: string -> HeadOutcome, l: string)
    ensures multiset(ValidLinks(candidates, head))[l] == if Keeps(l, head) then multiset(candidates)[l] else 0
  {
    if |candidates| > 0 {
      ValidLinksCounts(candidates[1..], head, l);
      assert candidates == [candidates[0]] + candidates[1..];
    }
  }

  /** What `session.get(post_url)` plus `raise_for_status()` gave: a failure,
      or a page whose `main-content` div may be missing. */
  datatype ArticleFetch = ArticleFailed | ArticleOk(mainContent: Option<seq<Node>>)

  /** `fetch_and_extract_links`: nothing on a failed fetch or a missing
      `main-content`, otherwise the validated candidates. */
  function ArticleLinks(fetch: ArticleFetch, blacklist: seq<string>, head: string -> HeadOutcome): (r: seq<string>)
    ensures fetch.ArticleFailed? ==> r == []
    ensures fetch.ArticleOk? && fetch.mainContent.None? ==> r == []
    ensures forall l :: l in r ==> !Blacklisted(l, blacklist) && Keeps(l, head)
    ensures fetch.ArticleOk? && fetch.mainContent.Some? ==>
              IsSubsequence(r, Candidates(fetch.mainContent.value, blacklist))
    ensures fetch.ArticleOk? && fetch.mainContent.Some? ==>
              forall l :: l in Candidates(fetch.mainContent.value, blacklist) && Keeps(l, head) ==> l in r
    // every passing occurrence is kept: no link is deduplicated
    ensures fetch.ArticleOk? && fetch.mainContent.Some? ==>
              forall l :: multiset(r)[l] ==
                if Keeps(l, head) then multiset(Candidates(fetch.mainContent.value, blacklist))[l] else 0
  {
    match fetch
    case ArticleFailed => []
    case ArticleOk(None) => []
    case ArticleOk(Some(nodes)) =>
      var candidates := Candidates(nodes, blacklist);
      assert forall l :: multiset(ValidLinks(candidates, head))[l] ==
               if Keeps(l, head) then multiset(candidates)[l] else 0 by {
        forall l {
          ValidLinksCounts(candidates, head, l);
        }
      }
      ValidLinks(candidates, head)
  }
}

=== FILE: listing.dfy ===
/** The listing-page side of Scraper.py: resolving a row's `M/D` date,
    turning a row into an article task, validating the date window and
    walking the board backwards page by page. */
module Listing {
  import opened Outcomes
  import opened Text
  import opened Dates
  import opened Config

  /** The text of a row's date div as `strptime` reads it: a month and a day,
      or something it cannot read at all. */
  datatype DateText = MonthDay(month: int, day: int) | Unreadable

  /** `parse_ptt_date`: build `currentYear-M-D`; if that lies after `today`,
      move it back one year. Any `ValueError` (unreadable text, no such day,
      February 29 moved into a common year, a year `%Y` cannot read) gives
      `None`. */
  function ParsePttDate(text: DateText, currentYear: int, today: Date): (r: Option<Date>)
    ensures r.Some? ==> Valid(r.value)
    ensures r.Some? ==> text.MonthDay? && r.value.month == text.month && r.value.day == text.day
    ensures r.Some? ==> r.value.year == currentYear || r.value.year == currentYear - 1
    ensures r.Some? ==> (r.value.year == currentYear <==> !Before(today, Date(currentYear, text.month, text.day)))
    ensures r.Some? && today.year == currentYear ==> NotAfter(r.value, today)
  {
    match text
    case Unreadable => None
    case MonthDay(m, d) =>
      var parsed := Date(currentYear, m, d);
      // `%Y` reads exactly four digits.
      if !(1000 <= currentYear <= 9999) || !Valid(parsed) then None
      else if Before(today, parsed) then
        var previous := Date(currentYear - 1, m, d);
        if Valid(previous) then Some(previous) else None
      else Some(parsed)
  }

  /** `parse_ptt_date` fails exactly on unreadable text, a four-digit year it
      cannot form, a day the current year does not have, or a February 29
      that lies after `today` and must move into a common year. */
  lemma ParsePttDateFailsExactly(m: int, d: int, currentYear: int, today: Date)
    ensures ParsePttDate(MonthDay(m, d), currentYear, today).None? <==>
              || !(1000 <= currentYear <= 9999)
              || !Valid(Date(currentYear, m, d))
              || (Before(today, Date(currentYear, m, d)) && m == 2 && d == 29 && !IsLeapYear(currentYear - 1))
  {
  }

  datatype TitleLink = TitleLink(href: Option<string>)
  /** A row's title div: its text and the `<a>` inside it, if any. */
  datatype TitleCell = TitleCell(text: string, link: Option<TitleLink>)
  /** One `r-ent` row of a listing page. */
  datatype Row = Row(date: Option<DateText>, title: Option<TitleCell>)

  /** An article to fetch: its absolute URL and its resolved date. */
  datatype Task = Task(url: string, date: Date)

  /** What `process_article_metadata` does with a row: rejects it (`None`),
      accepts it, or raises `TypeError` because the title anchor has no
      `href` (`PTT_BASE_URL + None`). */
  datatype Meta = Rejected | Accepted(task: Task) | HrefMissing

  /** The title filter: carries the subject tag and does not mention
      `cosplay` in any letter case. */
  predicate WantedTitle(title: string) {
    Contains(title, SubjectTag) && !Contains(Lower(title), "cosplay")
  }

  /** `process_article_metadata`. */
  function ProcessArticleMetadata(row: Row, currentYear: int, today: Date): (m: Meta)
    ensures m.Accepted? <==>
              && row.date.Some? && row.title.Some? && row.title.value.link.Some?
              && WantedTitle(Trim(row.title.value.text))
              && ParsePttDate(row.date.value, currentYear, today).Some?
              && row.title.value.link.value.href.Some?
    ensures m.Accepted? ==>
              && m.task.url == PttBaseUrl + row.title.value.link.value.href.value
              && Some(m.task.date) == ParsePttDate(row.date.value, currentYear, today)
    ensures m.HrefMissing? <==>
              && row.date.Some? && row.title.Some? && row.title.value.link.Some?
              && WantedTitle(Trim(row.title.value.text))
              && ParsePttDate(row.date.value, currentYear, today).Some?
              && row.title.value.link.value.href.None?
  {
    if row.date.None? || row.title.None? || row.title.value.link.None? then Rejected
    else
      var title := Trim(row.title.value.text);
      if !WantedTitle(title) then Rejected
      else
        match ParsePttDate(row.date.value, currentYear, today)
        case None => Rejected
        case Some(date) =>
          match row.title.value.link.value.href
          case None => HrefMissing
          case Some(href) => Accepted(Task(PttBaseUrl + href, date))
  }

  /** The two ways `scrape_ptt_images` can fail: a `ValueError` on a bad date
      window, or the `TypeError` from a title anchor without `href`. */
  datatype Fault = EndAfterToday | StartAfterEnd | HrefMissingInRow

  /** The input check of `scrape_ptt_images`, done before any request. */
  function WindowFault(start: Date, end: Date, today: Date): (f: Option<Fault>)
    ensures f.None? <==> NotAfter(start, end) && NotAfter(end, today)
    ensures f == Some(EndAfterToday) <==> Before(today, end)
    ensures f == Some(StartAfterEnd) <==> NotAfter(end, today) && Before(end, start)
  {
    if Before(today, end) then Some(EndAfterToday)
    else if Before(end, start) then Some(StartAfterEnd)
    else None
  }

  predicate InWindow(d: Date, start: Date, end: Date) {
    NotAfter(start, d) && NotAfter(d, end)
  }

  /** The row loop of one page: every accepted row whose date lies in the
      window becomes a task, in row order; a row without `href` aborts. */
  function Harvest(rows: seq<Row>, start: Date, end: Date, currentYear: int, today: Date): (r: Result<seq<Task>, Fault>)
    ensures r.Ok? ==> |r.value| <= |rows|
    ensures r.Ok? ==> forall t :: t in r.value ==> InWindow(t.date, start, end) && Valid(t.date)
    ensures r.Err? <==> exists i :: 0 <= i < |rows| && ProcessArticleMetadata(rows[i], currentYear, today).HrefMissing?
    ensures r.Err? ==> r.error == HrefMissingInRow
  {
    if |rows| == 0 then Ok([])
    else
      var m := ProcessArticleMetadata(rows[0], currentYear, today);
      var rest := Harvest(rows[1..], start, end, currentYear, today);
      assert forall i :: 1 <= i < |rows| ==> rows[i] == rows[1..][i - 1];
      if m.HrefMissing? then Err(HrefMissingInRow)
      else if rest.Err? then rest
      else if m.Accepted? && InWindow(m.task.date, start, end) then Ok([m.task] + rest.value)
      else rest
  }

  /** A successful harvest holds exactly the tasks of the accepted rows whose
      dates lie in the window. */
  lemma {:induction false} HarvestMembers(rows: seq<Row>, start: Date, end: Date, currentYear: int, today: Date, t: Task)
    requires Harvest(rows, start, end, currentYear, today).Ok?
    ensures t in Harvest(rows, start, end, currentYear, today).value <==>
              InWindow(t.date, start, end) &&
              exists i :: 0 <= i < |rows| && ProcessArticleMetadata(rows[i], currentYear, today) == Accepted(t)
  {
    if |rows| > 0 {
      HarvestMembers(rows[1..], start, end, currentYear, today, t);
      assert forall i :: 1 <= i < |rows| ==> rows[i] == rows[1..][i - 1];
      if exists i :: 0 <= i < |rows| && ProcessArticleMetadata(rows[i], currentYear, today) == Accepted(t) {
        var i :| 0 <= i < |rows| && ProcessArticleMetadata(rows[i], currentYear, today) == Accepted(t);
        if i > 0 {
          assert ProcessArticleMetadata(rows[1..][i - 1], currentYear, today) == Accepted(t);
        }
      }
    }
  }

  /** How many rows are accepted as exactly `t`, counted only when `t` lies
      in the window. */
  function Occurrences(rows: seq<Row>, t: Task, start: Date, end: Date, currentYear: int, today: Date): nat {
    if |rows| == 0 then 0
    else
      var here := ProcessArticleMetadata(rows[0], currentYear, today) == Accepted(t) && InWindow(t.date, start, end);
      (if here then 1 else 0) + Occurrences(rows[1..], t, start, end, currentYear, today)
  }

  /** A successful harvest holds each task as many times as rows yield it:
      no row's task is dropped or merged with an equal one. */
  lemma {:induction false} HarvestCounts(rows: seq<Row>, start: Date, end: Date, currentYear: int, today: Date, t: Task)
    requires Harvest(rows, start, end, currentYear, today).Ok?
    ensures multiset(Harvest(rows, start, end, currentYear, today).value)[t] == Occurrences(rows, t, start, end, currentYear, today)
  {
    if |rows| > 0 {
      HarvestCounts(rows[1..], start, end, currentYear, today, t);
    }
  }

  /** A navigation anchor of class `btn wide`: its text and its `href`. */
  datatype NavLink = NavLink(text: string, href: Option<string>)

  /** A fetched listing page: its `r-ent` rows and its `btn wide` anchors. */
  datatype Page = Page(rows: seq<Row>, nav: seq<NavLink>)

  /** `session.get` plus `raise_for_status()` on a listing page. */
  datatype PageFetch = PageFailed | PageOk(page: Page)

  /** `bs.find("a", class_="btn wide", string="‹ 上頁")`, then the `href`
      check: the previous page's path, if the first such anchor has one. */
  function PrevPagePath(nav: seq<NavLink>): (r: Option<string>)
    ensures r.Some? ==> exists i :: 0 <= i < |nav| && nav[i].text == PrevPageText && nav[i].href == r
  {
    if |nav| == 0 then None
    else if nav[0].text == PrevPageText then nav[0].href
    else PrevPagePath(nav[1..])
  }

  /** The early-stop test, made on the page's first row (`articles_html[0]`):
      its date div reads as a date earlier than `start`. */
  predicate FirstRowBeforeStart(rows: seq<Row>, start: Date, currentYear: int, today: Date)
    requires |rows| > 0
  {
    && rows[0].date.Some?
    && var d := ParsePttDate(rows[0].date.value, currentYear, today);
       d.Some? && Before(d.value, start)
  }

  /** The harvest of one fetched page; a failed fetch yields nothing. */
  function PageHarvest(fetched: PageFetch, start: Date, end: Date, currentYear: int, today: Date): Result<seq<Task>, Fault> {
    match fetched
    case PageFailed => Ok([])
    case PageOk(page) => Harvest(page.rows, start, end, currentYear, today)
  }

  /** The harvests of the pages at `urls`, concatenated in page order. */
  function Harvests(fetch: string -> PageFetch, urls: seq<string>, start: Date, end: Date,
                    currentYear: int, today: Date): Result<seq<Task>, Fault>
  {
    if |urls| == 0 then Ok([])
    else
      var first :- PageHarvest(fetch(urls[0]), start, end, currentYear, today);
      var rest :- Harvests(fetch, urls[1..], start, end, currentYear, today);
      Ok(first + rest)
  }

  /** Putting a page that harvests `here` in front of pages that harvest
      `later` puts its tasks in front. */
  lemma HarvestsCons(fetch: string -> PageFetch, url: string, here: seq<Task>, urls: seq<string>, later: seq<Task>,
                     visited: seq<string>, tasks: seq<Task>, start: Date, end: Date, currentYear: int, today: Date)
    requires PageHarvest(fetch(url), start, end, currentYear, today) == Ok(here)
    requires Harvests(fetch, urls, start, end, currentYear, today) == Ok(later)
    requires visited == [url] + urls && tasks == here + later
    ensures Harvests(fetch, visited, start, end, currentYear, today) == Ok(tasks)
  {
    assert visited[0] == url;
    assert visited[1..] == urls;
  }

  /** A single page harvests what its page harvest does. */
  lemma HarvestsOne(fetch: string -> PageFetch, url: string, here: seq<Task>,
                    start: Date, end: Date, currentYear: int, today: Date)
    requires PageHarvest(fetch(url), start, end, currentYear, today) == Ok(here)
    ensures Harvests(fetch, [url], start, end, currentYear, today) == Ok(here)
  {
    assert Harvests(fetch, [], start, end, currentYear, today) == Ok([]);
    assert [url] + [] == [url] && here + [] == here;
    HarvestsCons(fetch, url, here, [], [], [url], here, start, end, currentYear, today);
  }

  /** Some row of the page at `url` is accepted as `t`. */
  predicate AcceptedOn(fetch: string -> PageFetch, url: string, t: Task, currentYear: int, today: Date) {
    && fetch(url).PageOk?
    && exists i :: 0 <= i < |fetch(url).page.rows| && ProcessArticleMetadata(fetch(url).page.rows[i], currentYear, today) == Accepted(t)
  }

  /** The tasks harvested from a list of pages are exactly the accepted rows
      of those pages whose dates lie in the window. */
  lemma {:induction false} HarvestsMembers(fetch: string -> PageFetch, urls: seq<string>, start: Date, end: Date,
                                           currentYear: int, today: Date, t: Task)
    requires Harvests(fetch, urls, start, end, currentYear, today).Ok?
    ensures t in Harvests(fetch, urls, start, end, currentYear, today).value <==>
              InWindow(t.date, start, end) &&
              exists k :: 0 <= k < |urls| && AcceptedOn(fetch, urls[k], t, currentYear, today)
    decreases |urls|
  {
    if |urls| > 0 {
      var p := fetch(urls[0]);
      if p.PageOk? {
        HarvestMembers(p.page.rows, start, end, currentYear, today, t);
      }
      HarvestsMembers(fetch, urls[1..], start, end, currentYear, today, t);
      assert forall k :: 0 < k < |urls| ==> urls[1..][k - 1] == urls[k];
      if exists k :: 0 <= k < |urls| && AcceptedOn(fetch, urls[k], t, currentYear, today) {
        var k :| 0 <= k < |urls| && AcceptedOn(fetch, urls[k], t, currentYear, today);
        if k > 0 {
          assert AcceptedOn(fetch, urls[1..][k - 1], t, currentYear, today);
        }
      }
    }
  }

  /** Why the page walk ended. */
  datatype Stop = FetchFailed | NoRows | ReachedStart | NoPrevPage | PageLimit

  /** The walk's trace: tasks in harvest order, the URLs fetched, and the
      reason it ended. */
  datatype Crawl = Crawl(tasks: seq<Task>, visited: seq<string>, stop: Stop)

  /** What one iteration of the page loop decides after fetching a page:
      abort on a row error, end the walk with a reason, or go on to the
      previous page; `tasks` are the page's harvest. */
  datatype Step = Abort | Halt(tasks: seq<Task>, stop: Stop) | Next(tasks: seq<Task>, prev: string)

  /** One iteration of the page loop of `scrape_ptt_images`: a failed fetch
      or an empty page ends the walk; otherwise the rows are harvested first,
      then the first row's date may end the walk, then a missing
      previous-page link does. */
  function PageStep(fetched: PageFetch, start: Date, end: Date, currentYear: int, today: Date): (s: Step)
    ensures s.Halt? && s.stop == FetchFailed <==> fetched.PageFailed?
    ensures s.Halt? ==> s.stop != PageLimit
    ensures s.Halt? && s.stop == NoRows <==> fetched.PageOk? && |fetched.page.rows| == 0
    ensures !s.Abort? ==> PageHarvest(fetched, start, end, currentYear, today) == Ok(s.tasks)
    ensures s.Abort? <==> fetched.PageOk? && |fetched.page.rows| > 0 && Harvest(fetched.page.rows, start, end, currentYear, today).Err?
    ensures s.Halt? && s.stop == ReachedStart ==>
              fetched.PageOk? && |fetched.page.rows| > 0 && FirstRowBeforeStart(fetched.page.rows, start, currentYear, today)
    ensures s.Halt? && s.stop == NoPrevPage ==>
              && fetched.PageOk? && |fetched.page.rows| > 0
              && !FirstRowBeforeStart(fetched.page.rows, start, currentYear, today)
              && PrevPagePath(fetched.page.nav).None?
    ensures s.Next? <==>
              && fetched.PageOk? && |fetched.page.rows| > 0
              && Harvest(fetched.page.rows, start, end, currentYear, today).Ok?
              && !FirstRowBeforeStart(fetched.page.rows, start, currentYear, today)
              && PrevPagePath(fetched.page.nav).Some?
    ensures s.Next? ==> Some(s.prev) == PrevPagePath(fetched.page.nav)
  {
    match fetched
    case PageFailed => Halt([], FetchFailed)
    case PageOk(page) =>
      if |page.rows| == 0 then Halt([], NoRows)
      else
        match Harvest(page.rows, start, end, currentYear, today)
        case Err(_) => Abort
        case Ok(harvested) =>
          if FirstRowBeforeStart(page.rows, start, currentYear, today) then Halt(harvested, ReachedStart)
          else
            match PrevPagePath(page.nav)
            case None => Halt(harvested, NoPrevPage)
            case Some(prev) => Next(harvested, prev)
  }

  /** The walk went on from `url` to `next`: the page there had rows, its
      first row was not older than `start`, and its previous-page link led to
      `next`. */
  predicate Continues(fetch: string -> PageFetch, url: string, next: string, start: Date, currentYear: int, today: Date) {
    && fetch(url).PageOk?
    && |fetch(url).page.rows| > 0
    && !FirstRowBeforeStart(fetch(url).page.rows, start, currentYear, today)
    && PrevPagePath(fetch(url).page.nav).Some?
    && next == PttBaseUrl + PrevPagePath(fetch(url).page.nav).value
  }

  /** The page loop of `scrape_ptt_images` from the page at `path`, with
      `budget` iterations of `range(max_pages)` left. */
  function Walk(fetch: string -> PageFetch, path: string, budget: nat,
                start: Date, end: Date, currentYear: int, today: Date): (r: Result<Crawl, Fault>)
    ensures r.Err? ==> r.error == HrefMissingInRow
    ensures r.Ok? ==> |r.value.visited| <= budget
    ensures r.Ok? && budget > 0 ==> |r.value.visited| > 0 && r.value.visited[0] == PttBaseUrl + path
    ensures r.Ok? && r.value.stop == PageLimit ==> |r.value.visited| == budget
    ensures r.Ok? ==> forall t :: t in r.value.tasks ==> InWindow(t.date, start, end) && Valid(t.date)
    decreases budget
  {
    if budget == 0 then Ok(Crawl([], [], PageLimit))
    else
      var url := PttBaseUrl + path;
      match PageStep(fetch(url), start, end, currentYear, today)
      case Abort => Err(HrefMissingInRow)
      case Halt(harvested, stop) => Ok(Crawl(harvested, [url], stop))
      case Next(harvested, prev) =>
        var rest :- Walk(fetch, prev, budget - 1, start, end, currentYear, today);
        Ok(Crawl(harvested + rest.tasks, [url] + rest.visited, rest.stop))
  }

  /** The shape of a walk that ended on its first page. */
  lemma WalkHalt(fetch: string -> PageFetch, path: string, budget: nat,
                 start: Date, end: Date, currentYear: int, today: Date)
    requires budget > 0
    requires PageStep(fetch(PttBaseUrl + path), start, end, currentYear, today).Halt?
    ensures var step := PageStep(fetch(PttBaseUrl + path), start, end, currentYear, today);
      Walk(fetch, path, budget, start, end, currentYear, today) == Ok(Crawl(step.tasks, [PttBaseUrl + path], step.stop))
  {
  }

  /** The shape of a walk that went on past its first page. */
  lemma WalkNext(fetch: string -> PageFetch, path: string, budget: nat,
                 start: Date, end: Date, currentYear: int, today: Date)
    requires budget > 0
    requires PageStep(fetch(PttBaseUrl + path), start, end, currentYear, today).Next?
    requires Walk(fetch, path, budget, start, end, currentYear, today).Ok?
    ensures var step := PageStep(fetch(PttBaseUrl + path), start, end, currentYear, today);
      var rest := Walk(fetch, step.prev, budget - 1, start, end, currentYear, today);
      && rest.Ok?
      && Walk(fetch, path, budget, start, end, currentYear, today).value
         == Crawl(step.tasks + rest.value.tasks, [PttBaseUrl + path] + rest.value.visited, rest.value.stop)
  {
  }

  /** The walk's tasks are the harvests of the pages it fetched, in page
      order: nothing harvested is dropped, nothing else is added. */
  lemma {:induction false} WalkTasks(fetch: string -> PageFetch, path: string, budget: nat,
                                     start: Date, end: Date, currentYear: int, today: Date)
    requires Walk(fetch, path, budget, start, end, currentYear, today).Ok?
    ensures var c := Walk(fetch, path, budget, start, end, currentYear, today).value;
      Harvests(fetch, c.visited, start, end, currentYear, today) == Ok(c.tasks)
    decreases budget
  {
    if budget > 0 {
      var step := PageStep(fetch(PttBaseUrl + path), start, end, currentYear, today);
      if step.Next? {
        WalkNext(fetch, path, budget, start, end, currentYear, today);
        WalkTasks(fetch, step.prev, budget - 1, start, end, currentYear, today);
        WalkTasksNext(fetch, path, budget, start, end, currentYear, today);
      } else {
        WalkTasksHalt(fetch, path, budget, start, end, currentYear, today);
      }
    }
  }

  /** The base case of `WalkTasks`: a walk that ended on its first page
      holds that page's harvest. */
  lemma WalkTasksHalt(fetch: string -> PageFetch, path: string, budget: nat,
                      start: Date, end: Date, currentYear: int, today: Date)
    requires budget > 0
    requires PageStep(fetch(PttBaseUrl + path), start, end, currentYear, today).Halt?
    ensures var c := Walk(fetch, path, budget, start, end, currentYear, today);
      c.Ok? && Harvests(fetch, c.value.visited, start, end, currentYear, today) == Ok(c.value.tasks)
  {
    var step := PageStep(fetch(PttBaseUrl + path), start, end, currentYear, today);
    WalkHalt(fetch, path, budget, start, end, currentYear, today);
    HarvestsOne(fetch, PttBaseUrl + path, step.tasks, start, end, currentYear, today);
  }

  /** The inductive step of `WalkTasks`: a walk that went on past its first
      page keeps the rest's harvests behind the first page's. */
  lemma WalkTasksNext(fetch: string -> PageFetch, path: string, budget: nat,
                      start: Date, end: Date, currentYear: int, today: Date)
    requires budget > 0
    requires PageStep(fetch(PttBaseUrl + path), start, end, currentYear, today).Next?
    requires Walk(fetch, path, budget, start, end, currentYear, today).Ok?
    requires var step := PageStep(fetch(PttBaseUrl + path), start, end, currentYear, today);
      var rest := Walk(fetch, step.prev, budget - 1, start, end, currentYear, today);
      rest.Ok? && Harvests(fetch, rest.value.visited, start, end, currentYear, today) == Ok(rest.value.tasks)
    ensures var c := Walk(fetch, path, budget, start, end, currentYear, today).value;
      Harvests(fetch, c.visited, start, end, currentYear, today) == Ok(c.tasks)
  {
    var step := PageStep(fetch(PttBaseUrl + path), start, end, currentYear, today);
    var rest := Walk(fetch, step.prev, budget - 1, start, end, currentYear, today).value;
    var c := Walk(fetch, path, budget, start, end, currentYear, today).value;
    WalkNext(fetch, path, budget, start, end, currentYear, today);
    HarvestsCons(fetch, PttBaseUrl + path, step.tasks, rest.visited, rest.tasks, c.visited, c.tasks, start, end, currentYear, today);
  }

  /** Every page of `visited` but the last was left for the next one
      through its previous-page link. */
  predicate Linked(fetch: string -> PageFetch, visited: seq<string>, start: Date, currentYear: int, today: Date)
    decreases |visited|
  {
    |visited| <= 1 ||
      (Continues(fetch, visited[0], visited[1], start, currentYear, today) && Linked(fetch, visited[1..], start, currentYear, today))
  }

  lemma {:induction false} LinkedEveryHop(fetch: string -> PageFetch, visited: seq<string>, start: Date, currentYear: int, today: Date)
    requires Linked(fetch, visited, start, currentYear, today)
    ensures forall k :: 0 <= k < |visited| - 1 ==> Continues(fetch, visited[k], visited[k + 1], start, currentYear, today)
    decreases |visited|
  {
    if |visited| > 1 {
      LinkedEveryHop(fetch, visited[1..], start, currentYear, today);
      assert forall k :: 0 < k < |visited| - 1 ==> visited[1..][k - 1] == visited[k] && visited[1..][k] == visited[k + 1];
    }
  }

  /** The first hop of a walk that went on is the first page's
      previous-page link. */
  lemma WalkFirstHop(fetch: string -> PageFetch, path: string, budget: nat,
                     start: Date, end: Date, currentYear: int, today: Date)
    requires budget > 1 && Walk(fetch, path, budget, start, end, currentYear, today).Ok?
    ensures var c := Walk(fetch, path, budget, start, end, currentYear, today).value;
      |c.visited| > 1 ==> Continues(fetch, c.visited[0], c.visited[1], start, currentYear, today)
  {
    var step := PageStep(fetch(PttBaseUrl + path), start, end, currentYear, today);
    if step.Next? {
      WalkNext(fetch, path, budget, start, end, currentYear, today);
    }
  }

  /** Each page but the last was left only through its previous-page link,
      and only because its first row was not yet older than `start`. */
  lemma {:induction false} WalkFollowsPrevLinks(fetch: string -> PageFetch, path: string, budget: nat,
                                                start: Date, end: Date, currentYear: int, today: Date)
    requires Walk(fetch, path, budget, start, end, currentYear, today).Ok?
    ensures Linked(fetch, Walk(fetch, path, budget, start, end, currentYear, today).value.visited, start, currentYear, today)
    decreases budget
  {
    if budget > 1 {
      var url := PttBaseUrl + path;
      var step := PageStep(fetch(url), start, end, currentYear, today);
      if step.Next? {
        var rest := Walk(fetch, step.prev, budget - 1, start, end, currentYear, today);
        WalkNext(fetch, path, budget, start, end, currentYear, today);
        WalkFollowsPrevLinks(fetch, step.prev, budget - 1, start, end, currentYear, today);
        WalkFirstHop(fetch, path, budget, start, end, currentYear, today);
        assert ([url] + rest.value.visited)[1..] == rest.value.visited;
      }
    }
  }

  /** The last page fetched explains the stop: a failed fetch, an empty page,
      a first row older than `start`, or a missing previous-page link. */
  predicate StopExplained(fetch: string -> PageFetch, c: Crawl, start: Date, currentYear: int, today: Date) {
    c.stop != PageLimit ==>
      && |c.visited| > 0
      && var p := fetch(c.visited[|c.visited| - 1]);
      && (c.stop == FetchFailed <==> p.PageFailed?)
      && (c.stop == NoRows ==> p.PageOk? && |p.page.rows| == 0)
      && (c.stop == ReachedStart ==> p.PageOk? && |p.page.rows| > 0 && FirstRowBeforeStart(p.page.rows, start, currentYear, today))
      && (c.stop == NoPrevPage ==> p.PageOk? && PrevPagePath(p.page.nav).None?)
  }

  lemma {:induction false} WalkStopsForItsReason(fetch: string -> PageFetch, path: string, budget: nat,
                                                 start: Date, end: Date, currentYear: int, today: Date)
    requires Walk(fetch, path, budget, start, end, currentYear, today).Ok?
    ensures StopExplained(fetch, Walk(fetch, path, budget, start, end, currentYear, today).value, start, currentYear, today)
    decreases budget
  {
    if budget > 0 {
      var url := PttBaseUrl + path;
      var step := PageStep(fetch(url), start, end, currentYear, today);
      if step.Next? {
        WalkStopsForItsReason(fetch, step.prev, budget - 1, start, end, currentYear, today);
        StopExplainedNext(fetch, path, budget, start, end, currentYear, today);
      } else {
        WalkHalt(fetch, path, budget, start, end, currentYear, today);
        StopExplainedHalt(fetch, url, start, end, currentYear, today);
      }
    }
  }

  /** A walk that ends on the page at `url` ends for a reason that page
      shows. */
  lemma StopExplainedHalt(fetch: string -> PageFetch, url: string, start: Date, end: Date, currentYear: int, today: Date)
    requires PageStep(fetch(url), start, end, currentYear, today).Halt?
    ensures var step := PageStep(fetch(url), start, end, currentYear, today);
      StopExplained(fetch, Crawl(step.tasks, [url], step.stop), start, currentYear, today)
  {
    assert [url][0] == url;
  }

  /** A walk that went on past its first page ends for the reason the walk
      from the previous page does. */
  lemma StopExplainedNext(fetch: string -> PageFetch, path: string, budget: nat,
                          start: Date, end: Date, currentYear: int, today: Date)
    requires budget > 0 && Walk(fetch, path, budget, start, end, currentYear, today).Ok?
    requires PageStep(fetch(PttBaseUrl + path), start, end, currentYear, today).Next?
    ensures var step := PageStep(fetch(PttBaseUrl + path), start, end, currentYear, today);
      StopExplained(fetch, Walk(fetch, step.prev, budget - 1, start, end, currentYear, today).value, start, currentYear, today)
      ==> StopExplained(fetch, Walk(fetch, path, budget, start, end, currentYear, today).value, start, currentYear, today)
  {
    var step := PageStep(fetch(PttBaseUrl + path), start, end, currentYear, today);
    var rest := Walk(fetch, step.prev, budget - 1, start, end, currentYear, today);
    WalkNext(fetch, path, budget, start, end, currentYear, today);
    if StopExplained(fetch, rest.value, start, currentYear, today) {
      StopExplainedCons(fetch, PttBaseUrl + path, step.tasks, rest.value, start, currentYear, today);
    }
  }

  /** A walk that went on past a page ends for the reason its rest does. */
  lemma StopExplainedCons(fetch: string -> PageFetch, url: string, here: seq<Task>, rest: Crawl,
                          start: Date, currentYear: int, today: Date)
    requires StopExplained(fetch, rest, start, currentYear, today)
    ensures StopExplained(fetch, Crawl(here + rest.tasks, [url] + rest.visited, rest.stop), start, currentYear, today)
  {
    if rest.stop != PageLimit {
      var visited := [url] + rest.visited;
      assert visited[|visited| - 1] == rest.visited[|rest.visited| - 1];
    }
  }

  /** The page at `url` aborts the walk: its rows raise while being
      harvested. */
  predicate Aborts(fetch: string -> PageFetch, url: string, start: Date, end: Date, currentYear: int, today: Date) {
    && fetch(url).PageOk?
    && |fetch(url).page.rows| > 0
    && Harvest(fetch(url).page.rows, start, end, currentYear, today).Err?
  }

  /** A chain of pages the walk from `path` reaches within `budget`
      iterations, each left through its previous-page link, ending on a page
      that aborts. */
  predicate FailureChain(fetch: string -> PageFetch, path: string, budget: nat, visited: seq<string>,
                         start: Date, end: Date, currentYear: int, today: Date) {
    && 0 < |visited| <= budget
    && visited[0] == PttBaseUrl + path
    && Linked(fetch, visited, start, currentYear, today)
    && Aborts(fetch, visited[|visited| - 1], start, end, currentYear, today)
  }

  /** A walk that went on past its first page fails exactly when its rest
      does. */
  lemma WalkNextFails(fetch: string -> PageFetch, path: string, budget: nat, prev: string,
                      start: Date, end: Date, currentYear: int, today: Date)
    requires budget > 0
    requires PageStep(fetch(PttBaseUrl + path), start, end, currentYear, today).Next?
    requires PageStep(fetch(PttBaseUrl + path), start, end, currentYear, today).prev == prev
    ensures Walk(fetch, path, budget, start, end, currentYear, today).Err? <==>
            Walk(fetch, prev, budget - 1, start, end, currentYear, today).Err?
  {
  }

  /** A failed walk names the pages that led to the failure: it reached an
      aborting page through previous-page links within its budget. */
  lemma {:induction false} WalkFailsAt(fetch: string -> PageFetch, path: string, budget: nat,
                                       start: Date, end: Date, currentYear: int, today: Date) returns (visited: seq<string>)
    requires Walk(fetch, path, budget, start, end, currentYear, today).Err?
    ensures FailureChain(fetch, path, budget, visited, start, end, currentYear, today)
    decreases budget
  {
    var url := PttBaseUrl + path;
    var step := PageStep(fetch(url), start, end, currentYear, today);
    if step.Next? {
      WalkNextFails(fetch, path, budget, step.prev, start, end, currentYear, today);
      var rest := WalkFailsAt(fetch, step.prev, budget - 1, start, end, currentYear, today);
      visited := [url] + rest;
      assert visited[1..] == rest;
      assert visited[|visited| - 1] == rest[|rest| - 1];
    } else {
      visited := [url];
    }
  }

  /** A walk whose first page aborts fails. */
  lemma WalkAborts(fetch: string -> PageFetch, path: string, budget: nat,
                   start: Date, end: Date, currentYear: int, today: Date)
    requires budget > 0
    requires PageStep(fetch(PttBaseUrl + path), start, end, currentYear, today).Abort?
    ensures Walk(fetch, path, budget, start, end, currentYear, today).Err?
  {
  }

  /** A failure chain whose first page does not abort goes on through that
      page's previous-page link, and its rest is a failure chain from there. */
  lemma FailureChainTail(fetch: string -> PageFetch, path: string, budget: nat, visited: seq<string>,
                         start: Date, end: Date, currentYear: int, today: Date)
    requires FailureChain(fetch, path, budget, visited, start, end, currentYear, today)
    requires !PageStep(fetch(PttBaseUrl + path), start, end, currentYear, today).Abort?
    ensures var step := PageStep(fetch(PttBaseUrl + path), start, end, currentYear, today);
      && step.Next?
      && FailureChain(fetch, step.prev, budget - 1, visited[1..], start, end, currentYear, today)
  {
    var rest := visited[1..];
    assert Continues(fetch, visited[0], visited[1], start, currentYear, today);
    assert rest[|rest| - 1] == visited[|visited| - 1];
  }

  /** The converse: a failure chain makes the walk fail, so a walk that
      reaches no aborting page within its budget succeeds. */
  lemma {:induction false} WalkFailsFrom(fetch: string -> PageFetch, path: string, budget: nat, visited: seq<string>,
                                         start: Date, end: Date, currentYear: int, today: Date)
    requires FailureChain(fetch, path, budget, visited, start, end, currentYear, today)
    ensures Walk(fetch, path, budget, start, end, currentYear, today).Err?
    decreases budget
  {
    var step := PageStep(fetch(PttBaseUrl + path), start, end, currentYear, today);
    if step.Abort? {
      WalkAborts(fetch, path, budget, start, end, currentYear, today);
    } else {
      FailureChainTail(fetch, path, budget, visited, start, end, currentYear, today);
      WalkFailsFrom(fetch, step.prev, budget - 1, visited[1..], start, end, currentYear, today);
      WalkNextFails(fetch, path, budget, step.prev, start, end, currentYear, today);
    }
  }
}

=== FILE: notion.dfy ===
/** The publishing loop of notionPageCreate.py (lines 43-70) as pure
    functions: for each date with links, split the links into consecutive
    chunks of `NOTION_CHUNK_SIZE`, one Notion page per chunk, titled by the
    date and numbered from 1, holding one embed block per link. The Notion
    client calls themselves are not modelled; the pages they would create
    are the result. */
module NotionPages {
  import opened Text
  import opened Dates
  import opened Config
  import opened Aggregation
  import opened Arith

  /** `{"object": "block", "type": "embed", "embed": {"url": url}}`. */
  datatype EmbedBlock = EmbedBlock(url: string)

  /** One page to create: its title, its date property and its blocks. */
  datatype PagePlan = PagePlan(title: string, date: Date, index: nat, blocks: seq<EmbedBlock>)

  /** `len(range(0, n, size))`: the number of chunks, `ceil(n / size)`. */
  function ChunkCount(n: nat, size: nat): nat
    requires size > 0
  {
    (n + size - 1) / size
  }

  /** `ChunkCount(n, size)` chunks of `size` cover `n`, and one fewer do not. */
  lemma ChunkCountBounds(n: nat, size: nat)
    requires size > 0
    ensures n <= ChunkCount(n, size) * size
    ensures ChunkCount(n, size) > 0 ==> (ChunkCount(n, size) - 1) * size < n
  {
    var m := n + size - 1;
    var c := m / size;
    assert m == c * size + m % size;
    if c > 0 {
      assert (c - 1) * size == c * size - size;
    }
  }

  /** Every range offset `k * size` lies inside the list. */
  lemma ChunkStartInside(n: nat, size: nat, k: nat)
    requires size > 0 && k < ChunkCount(n, size)
    ensures k * size < n
  {
    ChunkCountBounds(n, size);
    MulMonotone(k, ChunkCount(n, size) - 1, size);
  }

  /** Chunk `k` starts inside the list; every chunk but the last has room
      for `size` links, and the last reaches the end. */
  lemma ChunkEnd(n: nat, size: nat, k: nat)
    requires size > 0 && k < ChunkCount(n, size)
    ensures k * size < n
    ensures k + 1 < ChunkCount(n, size) ==> k * size + size < n
    ensures k + 1 == ChunkCount(n, size) ==> n <= k * size + size
  {
    ChunkStartInside(n, size, k);
    ChunkCountBounds(n, size);
    MulSucc(k, size);
    if k + 1 < ChunkCount(n, size) {
      ChunkStartInside(n, size, k + 1);
    }
  }

  /** The page index `i // size + 1` at offset `i = k * size` is `k + 1`. */
  lemma PageIndexFromOffset(k: nat, size: nat)
    requires size > 0
    ensures k * size / size + 1 == k + 1
  {
    ModUnique(k * size, size, k, 0);
  }

  /** `chunk` is the `k`-th of the runs of `size` links: it is non-empty,
      starts at offset `k * size`, is full unless it is the last run, and
      the last run reaches the end of the list. */
  predicate IsChunk(urls: seq<string>, size: nat, k: nat, chunk: seq<string>)
    requires size > 0
  {
    && 0 < |chunk| <= size
    && k * size + |chunk| <= |urls|
    && chunk == urls[k * size..k * size + |chunk|]
    && (k + 1 < ChunkCount(|urls|, size) ==> |chunk| == size)
    && (k + 1 == ChunkCount(|urls|, size) ==> k * size + |chunk| == |urls|)
  }

  /** `image_urls[i:i+size]` for `i = k * size`; Python clips the slice end. */
  function ChunkAt(urls: seq<string>, size: nat, k: nat): (chunk: seq<string>)
    requires size > 0 && k < ChunkCount(|urls|, size)
    ensures IsChunk(urls, size, k, chunk)
  {
    ChunkEnd(|urls|, size, k);
    var i := k * size;
    urls[i..if i + size <= |urls| then i + size else |urls|]
  }

  /** `for i in range(0, len(image_urls), chunk_size)`: the chunks in order. */
  function Chunks(urls: seq<string>, size: nat): (cs: seq<seq<string>>)
    requires size > 0
    ensures |cs| == ChunkCount(|urls|, size)
    ensures forall k :: 0 <= k < |cs| ==> IsChunk(urls, size, k, cs[k])
  {
    var cs := seq(ChunkCount(|urls|, size), k requires 0 <= k < ChunkCount(|urls|, size) => ChunkAt(urls, size, k));
    assert forall k :: 0 <= k < |cs| ==> cs[k] == ChunkAt(urls, size, k);
    cs
  }

  /** The run property fixes each chunk: two runs at the same position are
      equal. */
  lemma IsChunkUnique(urls: seq<string>, size: nat, k: nat, a: seq<string>, b: seq<string>)
    requires size > 0 && IsChunk(urls, size, k, a) && IsChunk(urls, size, k, b)
    ensures a == b
  {
    ChunkCountBounds(|urls|, size);
    if k + 1 > ChunkCount(|urls|, size) {
      MulMonotone(ChunkCount(|urls|, size), k, size);
    }
  }

  /** Any split with the right number of chunks, each the run at its
      position, is the one `Chunks` gives: which link lands on which page is
      fixed. */
  lemma ChunksUnique(urls: seq<string>, size: nat, cs: seq<seq<string>>)
    requires size > 0 && |cs| == ChunkCount(|urls|, size)
    requires forall k :: 0 <= k < |cs| ==> IsChunk(urls, size, k, cs[k])
    ensures cs == Chunks(urls, size)
  {
    var chunks := Chunks(urls, size);
    forall k | 0 <= k < |cs|
      ensures cs[k] == chunks[k]
    {
      IsChunkUnique(urls, size, k, cs[k], chunks[k]);
    }
  }

  function Flatten(cs: seq<seq<string>>): seq<string> {
    if |cs| == 0 then [] else Flatten(cs[..|cs| - 1]) + cs[|cs| - 1]
  }

  /** The chunks put back together give the original list: nothing is lost,
      duplicated or reordered. */
  lemma ChunksRoundTrip(urls: seq<string>, size: nat)
    requires size > 0
    ensures Flatten(Chunks(urls, size)) == urls
  {
    var cs := Chunks(urls, size);
    FlattenPrefix(urls, size, |cs|);
    ChunkCountBounds(|urls|, size);
    assert Covered(|urls|, size, |cs|) == |urls|;
    assert cs[..|cs|] == cs;
  }

  /** How many links the first `j` chunks hold: `min(j * size, n)`. */
  function Covered(n: nat, size: nat, j: nat): nat {
    if j * size <= n then j * size else n
  }

  /** The first `j` chunks flatten to the first `Covered` links. */
  lemma {:induction false} FlattenPrefix(urls: seq<string>, size: nat, j: nat)
    requires size > 0 && j <= ChunkCount(|urls|, size)
    ensures Flatten(Chunks(urls, size)[..j]) == urls[..Covered(|urls|, size, j)]
  {
    var cs := Chunks(urls, size);
    if j == 0 {
      assert cs[..0] == [];
    } else {
      FlattenPrefix(urls, size, j - 1);
      var front := cs[..j];
      assert front[..j - 1] == cs[..j - 1];
      assert Flatten(front) == Flatten(cs[..j - 1]) + cs[j - 1];
      ChunkStartInside(|urls|, size, j - 1);
      MulSucc(j - 1, size);
      var endPrev := (j - 1) * size;
      var end := Covered(|urls|, size, j);
      assert Covered(|urls|, size, j - 1) == endPrev;
      assert cs[j - 1] == urls[endPrev..end];
      assert urls[..end] == urls[..endPrev] + urls[endPrev..end];
    }
  }

  /** `f"{date:%Y-%m-%d}"` for the first page, `f"{date:%Y-%m-%d} {k}"` after. */
  function PageTitle(date: Date, index: nat): string
    requires Valid(date)
  {
    if index == 1 then IsoDate(date) else IsoDate(date) + " " + NatToString(index)
  }

  /** Page titles of one date never collide. */
  lemma PageTitlesDistinct(date: Date, i: nat, j: nat)
    requires Valid(date) && i >= 1 && j >= 1 && i != j
    ensures PageTitle(date, i) != PageTitle(date, j)
  {
    var iso := IsoDate(date);
    if i != 1 && j != 1 {
      if PageTitle(date, i) == PageTitle(date, j) {
        assert NatToString(i) == PageTitle(date, i)[|iso| + 1..];
        assert NatToString(j) == PageTitle(date, j)[|iso| + 1..];
        NatToStringInjective(i, j);
      }
    }
  }

  function Embeds(chunk: seq<string>): seq<EmbedBlock> {
    seq(|chunk|, i requires 0 <= i < |chunk| => EmbedBlock(chunk[i]))
  }

  /** The pages for one date: none for an empty list, else one per chunk. */
  function PagesForDate(date: Date, urls: seq<string>, size: nat): (pages: seq<PagePlan>)
    requires Valid(date) && size > 0
    ensures |urls| == 0 ==> pages == []
    ensures |pages| == ChunkCount(|urls|, size)
    ensures forall k :: 0 <= k < |pages| ==>
              && pages[k].index == k + 1
              && pages[k].date == date
              && pages[k].title == PageTitle(date, k + 1)
              && 0 < |pages[k].blocks| <= size
    // page k lists the k-th run of links
    ensures forall k :: 0 <= k < |pages| ==> IsChunk(urls, size, k, UrlsOf(pages[k]))
  {
    if |urls| == 0 then []
    else
      var cs := Chunks(urls, size);
      var pages := seq(|cs|, k requires 0 <= k < |cs| => PagePlan(PageTitle(date, k + 1), date, k + 1, Embeds(cs[k])));
      assert forall k :: 0 <= k < |pages| ==> UrlsOf(pages[k]) == cs[k] && |pages[k].blocks| == |cs[k]| by {
        forall k | 0 <= k < |pages| {
          UrlsOfEmbeds(pages[k], cs[k]);
        }
      }
      pages
  }

  /** A page built from a chunk lists that chunk's links. */
  lemma UrlsOfEmbeds(p: PagePlan, chunk: seq<string>)
    requires p.blocks == Embeds(chunk)
    ensures UrlsOf(p) == chunk
  {
  }

  function UrlsOf(p: PagePlan): seq<string> {
    seq(|p.blocks|, i requires 0 <= i < |p.blocks| => p.blocks[i].url)
  }

  /** The embed URLs of a run of pages, page after page. */
  function BlockUrls(pages: seq<PagePlan>): seq<string> {
    if |pages| == 0 then [] else BlockUrls(pages[..|pages| - 1]) + UrlsOf(pages[|pages| - 1])
  }

  /** Reading the embed blocks of a date's pages in order gives back exactly
      that date's link list. */
  lemma PagesForDateRoundTrip(date: Date, urls: seq<string>, size: nat)
    requires Valid(date) && size > 0
    ensures BlockUrls(PagesForDate(date, urls, size)) == urls
  {
    if |urls| > 0 {
      var cs := Chunks(urls, size);
      var pages := PagesForDate(date, urls, size);
      BlockUrlsIsFlatten(pages, cs, |cs|);
      assert pages[..|cs|] == pages && cs[..|cs|] == cs;
      ChunksRoundTrip(urls, size);
    }
  }

  lemma {:induction false} BlockUrlsIsFlatten(pages: seq<PagePlan>, cs: seq<seq<string>>, j: nat)
    requires |pages| == |cs| && j <= |cs|
    requires forall k :: 0 <= k < |cs| ==> pages[k].blocks == Embeds(cs[k])
    ensures BlockUrls(pages[..j]) == Flatten(cs[..j])
  {
    if j > 0 {
      BlockUrlsIsFlatten(pages, cs, j - 1);
      assert pages[..j][..j - 1] == pages[..j - 1];
      assert cs[..j][..j - 1] == cs[..j - 1];
      assert UrlsOf(pages[..j][j - 1]) == cs[j - 1];
    }
  }

  /** The whole loop over `images_by_date.items()`, in dictionary order. */
  function PlanPages(buckets: seq<Bucket>, size: nat): (pages: seq<PagePlan>)
    requires size > 0
    requires forall b :: b in buckets ==> Valid(b.date)
    ensures forall p :: p in pages ==> exists b :: b in buckets && p.date == b.date && |b.links| > 0
  {
    if |buckets| == 0 then []
    else
      var b := buckets[|buckets| - 1];
      var before := buckets[..|buckets| - 1];
      var prefix := PlanPages(before, size);
      var mine := PagesForDate(b.date, b.links, size);
      assert forall c :: c in before ==> c in buckets;
      assert forall p :: p in mine ==> p.date == b.date && |b.links| > 0;
      prefix + mine
  }

  function AllLinks(buckets: seq<Bucket>): seq<string> {
    if |buckets| == 0 then [] else AllLinks(buckets[..|buckets| - 1]) + buckets[|buckets| - 1].links
  }

  lemma {:induction false} BlockUrlsAppend(a: seq<PagePlan>, b: seq<PagePlan>)
    ensures BlockUrls(a + b) == BlockUrls(a) + BlockUrls(b)
    decreases |b|
  {
    if |b| == 0 {
      assert a + b == a;
    } else {
      var init, last := b[..|b| - 1], b[|b| - 1];
      assert b == init + [last];
      assert a + b == (a + init) + [last];
      calc {
        BlockUrls(a + b);
        { BlockUrlsSnoc(a + init, last); }
        BlockUrls(a + init) + UrlsOf(last);
        { BlockUrlsAppend(a, init); }
        (BlockUrls(a) + BlockUrls(init)) + UrlsOf(last);
        BlockUrls(a) + (BlockUrls(init) + UrlsOf(last));
        { BlockUrlsSnoc(init, last); }
        BlockUrls(a) + BlockUrls(b);
      }
    }
  }

  /** A page appended at the end contributes its links at the end. */
  lemma BlockUrlsSnoc(a: seq<PagePlan>, p: PagePlan)
    ensures BlockUrls(a + [p]) == BlockUrls(a) + UrlsOf(p)
  {
    assert (a + [p])[..|a + [p]| - 1] == a;
  }

  /** Across all dates, the embed blocks of every planned page, read in page
      order, are exactly the scraped links in date order. */
  lemma {:induction false} PlanPagesRoundTrip(buckets: seq<Bucket>, size: nat)
    requires size > 0
    requires forall b :: b in buckets ==> Valid(b.date)
    ensures BlockUrls(PlanPages(buckets, size)) == AllLinks(buckets)
  {
    if |buckets| > 0 {
      var b := buckets[|buckets| - 1];
      var before := buckets[..|buckets| - 1];
      assert forall c :: c in before ==> c in buckets;
      PlanPagesRoundTrip(before, size);
      PagesForDateRoundTrip(b.date, b.links, size);
      BlockUrlsAppend(PlanPages(before, size), PagesForDate(b.date, b.links, size));
    }
  }

  /** The pages notionPageCreate.py creates for the scraped buckets. */
  function Publish(buckets: seq<Bucket>): (pages: seq<PagePlan>)
    requires forall b :: b in buckets ==> Valid(b.date)
    ensures forall p :: p in pages ==> 0 < |p.blocks| <= NotionChunkSize
  {
    PlanPagesBlocks(buckets, NotionChunkSize);
    PlanPages(buckets, NotionChunkSize)
  }

  lemma {:induction false} PlanPagesBlocks(buckets: seq<Bucket>, size: nat)
    requires size > 0
    requires forall b :: b in buckets ==> Valid(b.date)
    ensures forall p :: p in PlanPages(buckets, size) ==> 0 < |p.blocks| <= size
  {
    if |buckets| > 0 {
      var before := buckets[..|buckets| - 1];
      assert forall c :: c in before ==> c in buckets;
      PlanPagesBlocks(before, size);
    }
  }
}

=== FILE: outcomes.dfy ===
/** Failure-carrying values shared by every module of the model.
    `Option` stands for Python's `None`-or-value returns, `Result` for a
    value or the exception that escapes the operation. */
module Outcomes {

  datatype Option<+T> = None | Some(value: T)

  datatype Result<+T, +E> = Ok(value: T) | Err(error: E) {
    predicate IsFailure() {
      Err?
    }

    function PropagateFailure<U>(): Result<U, E>
      requires Err?
    {
      Err(error)
    }

    function Extract(): T
      requires Ok?
    {
      value
    }
  }
}

=== FILE: scraper.dfy ===
/** `scrape_ptt_images` of Scraper.py: the window check, the page walk from
    the board's index page, one extraction task per harvested article, and
    the date-keyed fold of their results. */
module Scraper {
  import opened Outcomes
  import opened Text
  import opened Dates
  import opened Config
  import opened Links
  import opened Listing
  import opened Aggregation

  /** The worker results in task order; `as_completed` may deliver them in
      any other order, which `CompletionOrderIrrelevant` covers. */
  function RunTasks(tasks: seq<Task>, fetchArticle: string -> ArticleFetch, head: string -> HeadOutcome): seq<Finished> {
    seq(|tasks|, i requires 0 <= i < |tasks| => Finished(tasks[i].date, ArticleLinks(fetchArticle(tasks[i].url), ImageBlacklist, head)))
  }

  /** `range(max_pages)` runs no iteration for a negative bound. */
  function PageBudget(maxPages: int): nat {
    if maxPages < 0 then 0 else maxPages
  }

  /** `scrape_ptt_images(start_date, end_date, max_pages)`. `today` and
      `currentYear` stand for `date.today()` and `datetime.now().year`;
      `fetchPage`, `fetchArticle` and `head` answer the listing, article and
      HEAD requests. */
  function ScrapeImages(start: Date, end: Date, maxPages: int, today: Date, currentYear: int,
                        fetchPage: string -> PageFetch, fetchArticle: string -> ArticleFetch,
                        head: string -> HeadOutcome): (r: Result<seq<Bucket>, Fault>)
    ensures WindowFault(start, end, today).Some? ==> r == Err(WindowFault(start, end, today).value)
    ensures r.Err? && WindowFault(start, end, today).None? ==> r.error == HrefMissingInRow
    ensures WindowFault(start, end, today).None? ==>
              (r.Err? <==> Walk(fetchPage, BoardIndexPath, PageBudget(maxPages), start, end, currentYear, today).Err?)
    ensures r.Ok? ==> WellFormed(r.value)
    ensures r.Ok? ==> forall b :: b in r.value ==> InWindow(b.date, start, end) && Valid(b.date)
    ensures r.Ok? ==> forall b, l :: b in r.value && l in b.links ==>
              !Blacklisted(l, ImageBlacklist) && Keeps(l, head)
    ensures r.Ok? ==>
              var w := Walk(fetchPage, BoardIndexPath, PageBudget(maxPages), start, end, currentYear, today);
              && w.Ok?
              && forall d :: Lookup(r.value, d) == LinksFor(RunTasks(w.value.tasks, fetchArticle, head), d)
  {
    match WindowFault(start, end, today)
    case Some(fault) => Err(fault)
    case None =>
      var crawl :- Walk(fetchPage, BoardIndexPath, PageBudget(maxPages), start, end, currentYear, today);
      ResultsSound(crawl.tasks, fetchArticle, head, start, end);
      Ok(Aggregate(RunTasks(crawl.tasks, fetchArticle, head)))
  }

  /** Completeness: every accepted row dated in the window, on any page the
      walk fetched, has every link its article yields filed under its date. */
  lemma ScrapeImagesComplete(start: Date, end: Date, maxPages: int, today: Date, currentYear: int,
                             fetchPage: string -> PageFetch, fetchArticle: string -> ArticleFetch,
                             head: string -> HeadOutcome, k: nat, t: Task, l: string)
    requires ScrapeImages(start, end, maxPages, today, currentYear, fetchPage, fetchArticle, head).Ok?
    requires Walk(fetchPage, BoardIndexPath, PageBudget(maxPages), start, end, currentYear, today).Ok?
    requires var w := Walk(fetchPage, BoardIndexPath, PageBudget(maxPages), start, end, currentYear, today).value;
      k < |w.visited| && AcceptedOn(fetchPage, w.visited[k], t, currentYear, today)
    requires InWindow(t.date, start, end)
    requires l in ArticleLinks(fetchArticle(t.url), ImageBlacklist, head)
    ensures l in Lookup(ScrapeImages(start, end, maxPages, today, currentYear, fetchPage, fetchArticle, head).value, t.date)
  {
    var w := Walk(fetchPage, BoardIndexPath, PageBudget(maxPages), start, end, currentYear, today).value;
    WalkTasks(fetchPage, BoardIndexPath, PageBudget(maxPages), start, end, currentYear, today);
    HarvestsMembers(fetchPage, w.visited, start, end, currentYear, today, t);
    var i :| 0 <= i < |w.tasks| && w.tasks[i] == t;
    var finished := RunTasks(w.tasks, fetchArticle, head);
    assert finished[i] == Finished(t.date, ArticleLinks(fetchArticle(t.url), ImageBlacklist, head));
    LinksForCollects(finished, i);
  }

  /** Every bucket of the fold over in-window tasks has an in-window date and
      only links that passed the blacklist and validation. */
  lemma ResultsSound(tasks: seq<Task>, fetchArticle: string -> ArticleFetch, head: string -> HeadOutcome, start: Date, end: Date)
    requires forall t :: t in tasks ==> InWindow(t.date, start, end) && Valid(t.date)
    ensures var r := Aggregate(RunTasks(tasks, fetchArticle, head));
      forall b :: b in r ==>
        && InWindow(b.date, start, end) && Valid(b.date)
        && forall l :: l in b.links ==> !Blacklisted(l, ImageBlacklist) && Keeps(l, head)
  {
    var finished := RunTasks(tasks, fetchArticle, head);
    forall b | b in Aggregate(finished)
      ensures InWindow(b.date, start, end) && Valid(b.date)
      ensures forall l :: l in b.links ==> !Blacklisted(l, ImageBlacklist) && Keeps(l, head)
    {
      var i := BucketOrigin(finished, b);
      assert tasks[i] in tasks;
      forall l | l in b.links ensures !Blacklisted(l, ImageBlacklist) && Keeps(l, head) {
        var j := LinkOrigin(finished, b, l);
        assert finished[j].links == ArticleLinks(fetchArticle(tasks[j].url), ImageBlacklist, head);
      }
    }
  }

  /** The rows of the worked example: the index page's first row is dated
      9/10, the second 9/15; "today" is 2025-09-20. */
  function StaleRow(): Row {
    Row(Some(MonthDay(9, 10)), Some(TitleCell("[正妹] a", Some(TitleLink(Some("/M.1.html"))))))
  }

  function RecentRow(): Row {
    Row(Some(MonthDay(9, 15)), Some(TitleCell("[正妹] b", Some(TitleLink(Some("/M.2.html"))))))
  }

  /** Both rows are accepted, but only the 9/15 one lies in the window
      2025-09-12..2025-09-19. */
  lemma ScenarioHarvest()
    ensures Harvest([StaleRow(), RecentRow()], StartDate, EndDate, 2025, Date(2025, 9, 20))
            == Ok([Task(PttBaseUrl + "/M.2.html", Date(2025, 9, 15))])
  {
    var today := Date(2025, 9, 20);
    WantedSample("[正妹] a");
    WantedSample("[正妹] b");
    assert ProcessArticleMetadata(StaleRow(), 2025, today) == Accepted(Task(PttBaseUrl + "/M.1.html", Date(2025, 9, 10)));
    assert ProcessArticleMetadata(RecentRow(), 2025, today) == Accepted(Task(PttBaseUrl + "/M.2.html", Date(2025, 9, 15)));
    assert [StaleRow(), RecentRow()][1..] == [RecentRow()];
    assert [RecentRow()][1..] == [];
    var t2 := Task(PttBaseUrl + "/M.2.html", Date(2025, 9, 15));
    assert Harvest([], StartDate, EndDate, 2025, today) == Ok([]);
    assert [t2] + [] == [t2];
    assert Harvest([RecentRow()], StartDate, EndDate, 2025, today) == Ok([t2]);
  }

  /** The walk of the worked example: its in-window row is harvested and no
      further page is fetched, although a previous-page link exists. */
  lemma ScenarioStopsOnOldFirstRow()
    ensures
      var page := Page([StaleRow(), RecentRow()], [NavLink(PrevPageText, Some("/index2.html"))]);
      Walk(_ => PageOk(page), BoardIndexPath, MaxPage, StartDate, EndDate, 2025, Date(2025, 9, 20))
        == Ok(Crawl([Task(PttBaseUrl + "/M.2.html", Date(2025, 9, 15))], [PttBaseUrl + BoardIndexPath], ReachedStart))
  {
    var page := Page([StaleRow(), RecentRow()], [NavLink(PrevPageText, Some("/index2.html"))]);
    ScenarioHarvest();
    assert FirstRowBeforeStart(page.rows, StartDate, 2025, Date(2025, 9, 20));
  }

  /** A short title of the form `[正妹] x` passes the title filter. */
  lemma WantedSample(title: string)
    requires |title| == 6 && title[..4] == SubjectTag && title[4] == ' ' && 'a' <= title[5] <= 'z'
    ensures WantedTitle(title) && Trim(title) == title
  {
    assert Contains(title, SubjectTag);
    var low := Lower(title);
    assert !Contains(low, "cosplay") by {
      ContainsIffOccurs(low, "cosplay");
    }
    assert LeadingSpace(title) == 0;
    assert TrailingSpaceStart(title) == 6;
  }
}

=== FILE: text.dfy ===
/** String helpers with the meaning Python gives them: `str.strip()`,
    the `in` substring test, ASCII `str.lower()` and decimal formatting. */
module Text {

  /** Characters Python's `str.isspace()` accepts, the set `strip()` removes. */
  predicate IsSpace(c: char) {
    || c == ' ' || c == '\t' || c == '\n' || c == '\r'
    || c == '\U{0B}' || c == '\U{0C}'
    || ('\U{1C}' <= c <= '\U{1F}')
    || c == '\U{85}' || c == '\U{A0}' || c == '\U{1680}'
    || ('\U{2000}' <= c <= '\U{200A}')
    || c == '\U{2028}' || c == '\U{2029}' || c == '\U{202F}' || c == '\U{205F}'
    || c == '\U{3000}'
  }

  /** How many whitespace characters `s` starts with. */
  function LeadingSpace(s: string): (k: nat)
    ensures k <= |s|
    ensures forall i :: 0 <= i < k ==> IsSpace(s[i])
    ensures k < |s| ==> !IsSpace(s[k])
  {
    if |s| > 0 && IsSpace(s[0]) then 1 + LeadingSpace(s[1..]) else 0
  }

  /** Where the trailing whitespace of `s` begins. */
  function TrailingSpaceStart(s: string): (k: nat)
    ensures k <= |s|
    ensures forall i :: k <= i < |s| ==> IsSpace(s[i])
    ensures k > 0 ==> !IsSpace(s[k - 1])
  {
    if |s| > 0 && IsSpace(s[|s| - 1]) then TrailingSpaceStart(s[..|s| - 1]) else |s|
  }

  /** `r` is the slice `s[i..i+|r|]` and everything of `s` around it is whitespace. */
  predicate SpaceAround(s: string, r: string, i: int) {
    && 0 <= i <= |s| - |r|
    && r == s[i..i + |r|]
    && (forall k :: 0 <= k < i ==> IsSpace(s[k]))
    && (forall k :: i + |r| <= k < |s| ==> IsSpace(s[k]))
  }

  /** Python's `s.strip()`. */
  function Trim(s: string): string {
    var a := s[LeadingSpace(s)..];
    a[..TrailingSpaceStart(a)]
  }

  /** `Trim` keeps the slice of `s` between its leading and trailing whitespace:
      the result neither starts nor ends with whitespace, and everything cut
      away was whitespace. */
  lemma TrimKeepsCore(s: string)
    ensures exists i :: SpaceAround(s, Trim(s), i)
    ensures |Trim(s)| > 0 ==> !IsSpace(Trim(s)[0]) && !IsSpace(Trim(s)[|Trim(s)| - 1])
  {
    assert SpaceAround(s, Trim(s), LeadingSpace(s));
  }

  /** Python's `sub in s` for strings. */
  predicate Contains(s: string, sub: string)
    decreases |s|
  {
    sub <= s || (|s| > 0 && Contains(s[1..], sub))
  }

  predicate OccursAt(s: string, sub: string, i: int) {
    0 <= i <= |s| - |sub| && s[i..i + |sub|] == sub
  }

  /** `Contains` finds `sub` exactly when it occurs at some offset of `s`. */
  lemma {:induction false} ContainsIffOccurs(s: string, sub: string)
    ensures Contains(s, sub) <==> exists i :: OccursAt(s, sub, i)
    decreases |s|
  {
    if sub <= s {
      assert OccursAt(s, sub, 0);
    } else if |s| > 0 {
      ContainsIffOccurs(s[1..], sub);
      if exists i :: OccursAt(s, sub, i) {
        var i :| OccursAt(s, sub, i);
        assert i != 0;
        OccursShift(s, sub, i);
      }
      if Contains(s[1..], sub) {
        var j :| OccursAt(s[1..], sub, j);
        OccursShift(s, sub, j + 1);
      }
    }
  }

  lemma OccursShift(s: string, sub: string, i: int)
    requires |s| > 0 && i >= 1
    ensures OccursAt(s, sub, i) <==> OccursAt(s[1..], sub, i - 1)
  {
    if 0 <= i <= |s| - |sub| {
      assert s[1..][i - 1..i - 1 + |sub|] == s[i..i + |sub|];
    }
  }

  function LowerChar(c: char): char {
    if 'A' <= c <= 'Z' then (c as int - 'A' as int + 'a' as int) as char else c
  }

  /** `str.lower()` restricted to the ASCII letters. */
  function Lower(s: string): (r: string)
    ensures |r| == |s|
    ensures forall i :: 0 <= i < |s| ==> r[i] == LowerChar(s[i])
  {
    seq(|s|, i requires 0 <= i < |s| => LowerChar(s[i]))
  }

  predicate IsDigit(c: char) {
    '0' <= c <= '9'
  }

  predicate AllDigits(s: string) {
    forall i :: 0 <= i < |s| ==> IsDigit(s[i])
  }

  function DigitChar(d: nat): (c: char)
    requires d < 10
    ensures IsDigit(c)
  {
    ('0' as int + d) as char
  }

  /** The number a string of decimal digits denotes (leading zeros allowed). */
  function DigitsValue(s: string): nat
    requires AllDigits(s)
  {
    if |s| == 0 then 0
    else DigitsValue(s[..|s| - 1]) * 10 + (s[|s| - 1] as int - '0' as int)
  }

  /** Python's `str(n)` for a non-negative integer. */
  function NatToString(n: nat): (r: string)
    ensures |r| >= 1 && AllDigits(r)
    ensures r[0] == '0' ==> n == 0
  {
    if n < 10 then [DigitChar(n)] else NatToString(n / 10) + [DigitChar(n % 10)]
  }

  function Pow10(k: nat): (p: nat)
    ensures p >= 1
  {
    if k == 0 then 1 else 10 * Pow10(k - 1)
  }

  /** A number below `10^k` prints in at most `k` digits. */
  lemma {:induction false} ShortNumber(n: nat, k: nat)
    requires k >= 1 && n < Pow10(k)
    ensures |NatToString(n)| <= k
  {
    if n >= 10 {
      assert k >= 2;
      ShortNumber(n / 10, k - 1);
    }
  }

  /** Decimal formatting can be read back. */
  lemma {:induction false} NatToStringRoundTrip(n: nat)
    ensures DigitsValue(NatToString(n)) == n
  {
    if n >= 10 {
      var s := NatToString(n);
      assert s[..|s| - 1] == NatToString(n / 10);
      NatToStringRoundTrip(n / 10);
    }
  }

  /** Distinct numbers have distinct decimal forms. */
  lemma NatToStringInjective(a: nat, b: nat)
    ensures NatToString(a) == NatToString(b) ==> a == b
  {
    NatToStringRoundTrip(a);
    NatToStringRoundTrip(b);
  }

  function Zeros(k: nat): (r: string)
    ensures |r| == k && AllDigits(r)
  {
    seq(k, _ => '0')
  }

  /** Leading zeros do not change the value of a digit string. */
  lemma {:induction false} LeadingZerosValue(k: nat, s: string)
    requires AllDigits(s)
    ensures DigitsValue(Zeros(k) + s) == DigitsValue(s)
    decreases |s|
  {
    if |s| == 0 {
      LeadingZerosAlone(k);
      assert Zeros(k) + s == Zeros(k);
    } else {
      var t := Zeros(k) + s;
      assert t[..|t| - 1] == Zeros(k) + s[..|s| - 1];
      LeadingZerosValue(k, s[..|s| - 1]);
    }
  }

  lemma {:induction false} LeadingZerosAlone(k: nat)
    ensures DigitsValue(Zeros(k)) == 0
  {
    if k > 0 {
      assert Zeros(k)[..k - 1] == Zeros(k - 1);
      LeadingZerosAlone(k - 1);
    }
  }

  /** Python's `f"{n:0{width}d}"` for a non-negative `n`: zero-padded to at least
      `width` characters, never truncated. */
  function ZeroPad(n: nat, width: nat): (r: string)
    ensures |r| >= width && AllDigits(r)
    ensures |r| == if |NatToString(n)| >= width then |NatToString(n)| else width
    ensures DigitsValue(r) == n
  {
    var s := NatToString(n);
    NatToStringRoundTrip(n);
    if |s| >= width then s
    else
      LeadingZerosValue(width - |s|, s);
      Zeros(width - |s|) + s
  }

  /** JavaScript's `String(i)` / template interpolation of an integer. */
  function IntToString(i: int): (r: string)
    ensures i >= 0 ==> r == NatToString(i)
    ensures i < 0 ==> |r| > 0 && r[0] == '-'
  {
    if i < 0 then "-" + NatToString(-i) else NatToString(i)
  }
}
